=== FILE: README.md ===
# sat-search: search normalisation and paging, in Dafny

This project models the core of `satsearch/search.py`, a client for a
STAC-style catalog search API. The model has two parts.

- **Normalisation** (`Search.search`, then `Search.__init__`). Loose keyword
  parameters become a search request body:
  - a `collection` shortcut becomes the property expression `collection=<id>`;
  - each property expression is split on the first comparison symbol that
    cuts it into exactly two pieces, giving `{field: {opName: value}}`;
  - those fragments are merged into `query`;
  - sort directives become `{field, direction}` records;
  - `datetime` is renamed `time`.
- **The search session** (`found`, `collection`, `items_by_id`, `items`). It
  runs over an abstract executor, a total function from a request (target
  plus JSON body) to a decoded response or the text of a failed response.
  The methods return the log of requests they issued, so the contracts can
  say which requests were made and in what order.

Modules:

| file | module | models |
|---|---|---|
| `wrappers.dfy` | `Wrappers` | Option/Result helpers |
| `json.dfy` | `Json` | JSON-like values, parameters, the Python-level errors, `v[k]`, `v.get`, `len` |
| `strings.dfy` | `Strings` | `str.split` on a non-empty separator, `str(int)` |
| `merge.dfy` | `Merge` | the recursive mapping merge `dict_merge` |
| `normalize.dfy` | `Normalize` | `Search.search` and `Search.__init__` |
| `session.dfy` | `Session` | `found`, `query`, `collection`, `items_by_id`, `items` |

Points of the code's behaviour that the model keeps as written:

- **Symbol order.** The symbols are tried in the insertion order of the table
  at `satsearch/search.py:39`: `=`, `>`, `<`, `>=`, `<=`. So `a>=5` is taken by
  `=` and gives field `a>`, operator `eq`, value `5`, not `{a: {gte: "5"}}`.
  `Normalize.ParseGreaterOrEqualAsWritten` proves this.
  `Normalize.GreaterOrEqualNeedsRepeats` proves that `>=` is chosen only
  when `=` and `>` each occur more than once, and
  `Normalize.ParseGreaterOrEqualReachable` gives one such expression.
- **Empty pieces.** Empty pieces are accepted, so `=5` gives an empty field.
- **Rename order.** The rename of `datetime` happens in the constructor, so
  it comes after the collection, property and sort steps.
- **Fetch method.** `collection` and `items_by_id` go through `query`. They
  POST an empty JSON body rather than issuing a GET.
- **User overrides.** The session's own `page` and `limit` keywords override
  the defaults of the counting query and of the page loop. This is the
  effect of `kwargs.update(self.kwargs)`. A `url` keyword redirects every
  search query.

## Model

| member | source | states |
|---|---|---|
| `Normalize.RenameDatetime` | satsearch/search.py:23-29 | `datetime` is gone; its value sits under `time`; every other key keeps its value and no key but `time` is new; without `datetime` nothing changes |
| `Normalize.ApplyCollection` | satsearch/search.py:33-38 | the shortcut is removed and `collection=<id>` is appended as the last entry of the existing property list, or of a new list when none exists; a non-list `property` fails (no `append`); other keys unchanged |
| `Strings.Decimal` | satsearch/search.py:34 | `str(n)` has a minus sign exactly for a negative number, then decimal digits without leading zeros; reading the text back gives `n` |
| `Strings.Digits` | satsearch/search.py:34 | the digits of a natural number spell that number, most significant first, with no leading zero |
| `Normalize.Render` | satsearch/search.py:34 | `%s` of a string is itself, of `None` is `None`, of an integer its decimal text, which reads back as the integer; only a string can hold `=` |
| `Normalize.CollectionClause` | satsearch/search.py:34-47 | the shortcut's expression parses as the equality `collection = id` whenever the rendered id holds no `=` |
| `Normalize.CollectionShortcut` | satsearch/search.py:33-38 | normalising with `collection=c` gives exactly the result of normalising with `collection=c` appended to the property list instead |
| `Json.Index` | satsearch/search.py:74 | `v[k]` on a mapping holding `k` yields its value; a missing key and a non-mapping fail differently |
| `Json.Get` | satsearch/search.py:106 | `v.get(k, d)` yields the value under `k`, or `d` when absent; a non-mapping has no `get` |
| `Json.Length` | satsearch/search.py:67 | `len` of a list, string or mapping is its size; numbers and `None` have no length |
| `Merge.MergeIntoEmpty` | satsearch/search.py:41-46 | merging into the initially empty query yields the fragment itself |
| `Strings.SplitAbsent` | satsearch/search.py:44-45 | a text without the separator splits into one piece, so that symbol is skipped |
| `Strings.Split` | satsearch/search.py:44 | `str.split` yields at least one piece |
| `Strings.JoinSplit` | satsearch/search.py:44 | joining the pieces of a split with the separator gives back the text |
| `Strings.SplitPartsAbsent` | satsearch/search.py:44 | no piece of a split contains the separator |
| `Strings.TwoPieces` | satsearch/search.py:44-45 | a text splits into exactly two pieces iff the separator occurs and no occurrence follows the first one |
| `Normalize.ParseFrom` | satsearch/search.py:43-47 | trying symbols from a given position, the first that splits into two pieces is chosen; none chosen iff none qualifies |
| `Normalize.ParseExpression` | satsearch/search.py:39-47 | an expression is attributed to the first symbol, in table order, whose split has exactly two pieces; field is the left piece, value the right piece; nothing iff no symbol qualifies |
| `Normalize.ParseFirstSymbol` | satsearch/search.py:39-47 | an expression that splits in two on a symbol, and on no symbol earlier in the table, parses to that symbol's pieces |
| `Normalize.ParseReconstructs` | satsearch/search.py:44-46 | a parsed expression is its field, its symbol and its value concatenated |
| `Normalize.EqualityRoundTrip` | satsearch/search.py:44-46 | `field=value` with no `=` on either side parses back to that equality |
| `Normalize.ParseGreaterOrEqualAsWritten` | satsearch/search.py:39-47 | `a>=5` gives field `a>`, operator `eq`, value `5` |
| `Normalize.ParseLessOrEqualAsWritten` | satsearch/search.py:39-47 | `a<=5` gives field `a<`, operator `eq`, value `5` |
| `Normalize.ParseEmptyField` | satsearch/search.py:44-46 | `=5` gives an empty field |
| `Normalize.ParseGreaterOrEqualReachable` | satsearch/search.py:39-47 | the example `a>=b=c>d` reaches `>=`: field `a`, operator `gte`, value `b=c>d` |
| `Normalize.GreaterOrEqualNeedsRepeats` | satsearch/search.py:39-47 | whenever an expression is attributed to `>=`, splitting it on `=` and on `>` each gives three or more pieces |
| `Normalize.LessOrEqualNeedsRepeats` | satsearch/search.py:39-47 | whenever an expression is attributed to `<=`, splitting it on `=` and on `<` each gives three or more pieces |
| `Normalize.ParseDoubledEqualsDropped` | satsearch/search.py:43-47 | `a==b` contributes nothing |
| `Merge.MergeFields` | satsearch/search.py:46 | the merge keeps the keys of both sides, merges mappings present on both sides recursively, and otherwise lets the right side win |
| `Merge.MergeDisjoint` | satsearch/search.py:46 | entries on keys the two sides do not share all survive |
| `Normalize.AddClause` | satsearch/search.py:46 | recording a clause sets that field's operator to its value and keeps every other field and operator |
| `Normalize.MergeFragment` | satsearch/search.py:46 | merging the fragment `{field: {op: value}}` into a query is recording the clause |
| `Normalize.MergeNewField` | satsearch/search.py:46 | a clause on a field the query does not yet name adds its fragment beside the existing fields, which keep their clauses |
| `Normalize.MergeFirstClause` | satsearch/search.py:41-46 | the first parsed clause, merged into `queries = {}`, leaves exactly its fragment |
| `Normalize.MergeAll` | satsearch/search.py:41-47 | the merged query has a field exactly for each field some parsed expression names |
| `Normalize.MergeAllIsAccumulate` | satsearch/search.py:41-47 | the merge loop over all expressions equals the typed accumulation of their clauses |
| `Normalize.AccumulateSound` | satsearch/search.py:41-47 | every query entry comes from the last expression setting that field and operator |
| `Normalize.AccumulateLastWins` | satsearch/search.py:41-47 | the last expression setting a field and operator decides its value; fragments on other fields or operators all survive |
| `Normalize.AccumulateEmpty` | satsearch/search.py:41-49 | the query is empty iff no expression parses |
| `Normalize.ExpandProperties` | satsearch/search.py:40-49 | a property list is replaced by `query` built from its expressions; a prior `query` is discarded; every other key is unchanged; a non-string entry fails; a non-list `property` is left alone |
| `Normalize.QueryDiscarded` | satsearch/search.py:40-49 | with a property list, a caller's `query` does not affect the outcome |
| `Normalize.ParseSort` | satsearch/search.py:53-59 | `<x` sorts ascending on `x`; `>x` sorts descending on `x`; an unprefixed entry sorts descending on its whole text; an empty entry fails |
| `Normalize.SortRoundTrip` | satsearch/search.py:53-59 | parsing the directive that spells a sort key recovers the key |
| `Normalize.SortDefaultsDescending` | satsearch/search.py:54-55 | an unprefixed directive parses like the same directive prefixed with `>` |
| `Normalize.ExpandSorts` | satsearch/search.py:52-59 | the records have the input's length and order; each is its entry's parse; the first failing entry aborts |
| `Normalize.ExpandSort` | satsearch/search.py:51-61 | a sort list is accepted iff every entry parses, and then replaced by its records with other keys unchanged; a failure is some entry's failure; a non-list `sort` is left alone |
| `Normalize.Search` | satsearch/search.py:32-62 | the result has no `collection` or `datetime` key; `datetime`'s value is under `time`; a collection shortcut with a non-list `property` fails |
| `Normalize.SearchSucceeds` | satsearch/search.py:32-62 | normalisation succeeds iff a shortcut has a list or nothing to append to, every entry of a property list is a string, and every entry of a sort list parses |
| `Normalize.Expressions` | satsearch/search.py:33-42 | the expressions filtered on are the property list's strings in order, then the shortcut's `collection=<id>` |
| `Normalize.SearchQuery` | satsearch/search.py:33-49 | with a shortcut or a property list, the resulting `query` is the accumulation of the clauses those expressions parse to |
| `Normalize.SearchSorts` | satsearch/search.py:51-61 | a sort list in the result holds, in order, the parse of each entry given |
| `Normalize.SearchPassesThrough` | satsearch/search.py:32-62 | keys that normalisation does not interpret pass through unchanged, and no other key appears; so do the interpreted keys a run does not act on: `time` when there is no `datetime`, `query` and `property` when there is neither a collection shortcut nor a `property` list, and a `sort` that is not a list (each present exactly when given, with the given value) |
| `Normalize.SearchBuildsQuery` | satsearch/search.py:33-49 | with a shortcut or a property list, the result holds a `query` mapping and no `property` key |
| `Session.SearchRequest` | satsearch/search.py:76-80 | the body is the parameters without `url`; a `url` parameter replaces the search endpoint |
| `Session.Query` | satsearch/search.py:80-84 | a non-200 response fails with a search error carrying the response text; a 200 response returns its body |
| `Session.FoundBody` | satsearch/search.py:68-72 | the counting body is page 1, limit 0, each overridden by the session's own parameters, which all appear unchanged |
| `Session.MetaFound` | satsearch/search.py:74 | `meta.found` is read iff the response is a mapping whose `meta` mapping holds `found`; a non-mapping and a missing `meta` fail differently |
| `Session.Found` | satsearch/search.py:64-74 | with `ids`: the length of `ids` and no request; otherwise exactly one counting request, failing with its response text when not answered, and giving the answer's `meta.found` when answered |
| `Session.IdValues` | satsearch/search.py:98 | a list of ids is iterated in order; a string is iterated by characters |
| `Session.ItemsById` | satsearch/search.py:92-100 | one collection fetch first, then item fetches for the ids in input order; on success one per id, the items are the responses in that order and the only collection is the fetched one; a failure is the failed collection fetch, an `ids` that cannot be iterated, a non-string id (not fetched, and only after every earlier item fetch was answered), or the last item fetch with its response text |
| `Session.PagedBody` | satsearch/search.py:113-118 | page bodies start at page 1 with a page size of `min(1000, maxItems)`, each overridden by the session's own parameters |
| `Session.Features` | satsearch/search.py:120 | a page's items are its `features` list |
| `Session.Paginate` | satsearch/search.py:119-121 | no request when `maxItems <= 0`; page numbers rise by exactly 1 from the start; on success every page was answered with a `features` list, the items are theirs in page order, at least `maxItems` of them, and the last page was needed; on failure every page but the last was answered, the last was needed, and its failure is the result; the loop needs some page to stop it |
| `Session.CollectedPrefix` | satsearch/search.py:119-120 | the items of fewer pages are a prefix of the items of more pages |
| `Session.CollectedInPageOrder` | satsearch/search.py:120 | each page's items form the block after the earlier pages' items |
| `Session.CollectionRef` | satsearch/search.py:125 | an item names a collection iff its properties hold a `collection` key; a non-string id fails |
| `Session.Referenced` | satsearch/search.py:125 | the set of collection ids named by the items, skipping items that name none |
| `Session.FetchCollections` | satsearch/search.py:124-126 | each referenced collection is fetched exactly once, and nothing else; results match responses; a failed fetch aborts with its text |
| `Session.MaxItems` | satsearch/search.py:112-113 | `min(found, limit)` exactly when the counting query answers a number; its failure otherwise, or a type error for a non-number |
| `Session.FetchPages` | satsearch/search.py:111-121 | the counting request comes first; on success there is no page exactly when `min(found, limit) <= 0`, otherwise the pages run as in `Paginate` from the starting page; a failure is the count's failure before any page, a needed page's failure, or, from a non-numeric starting page, that page's failure or a type error on advancing it |
| `Session.PagedItems` | satsearch/search.py:111-137 | counting and pages as in `FetchPages`, then one fetch per distinct referenced collection, the collections being the responses; the result carries the search parameters; a failure is paging's, a non-string collection id before any collection fetch, or the last collection fetch with its response text |
| `Session.CollectionOfQuery` | satsearch/search.py:106 | the `eq` entry of `query.collection`; `None` when `query`, `collection` or `eq` is absent; an error when a level present is not a mapping |
| `Session.Items` | satsearch/search.py:102-137 | with `ids`: no page query; a malformed `query` fails, a missing `query.collection.eq` fails with "Collection required when searching by id", a non-string one with a type error, all with no request; otherwise the search by id runs as in `ItemsById`; without `ids`: the paged search runs as in `PagedItems` |

## Left out

- HTTP, JSON encoding, logging and URL joining with the configured base URL
  are not modelled. They are replaced by the executor and by the request
  targets.
- The satstac `Collection`, `Item` and `Items` classes are foreign code. They
  are modelled as the raw JSON they wrap, and `ResultSet` stands for `Items`.
- `Session.CollectionRef`: item properties are assumed to be read as
  `data.get('properties', {})`. The satstac `Item` class is not part of this
  model.
- `Merge.MergeFields`: the satstac `dict_merge` is not part of this model.
  Its semantics are assumed to be a recursive merge where the right side wins
  on non-mapping values.
- `Normalize.RenameDatetime`: the rename is a pure map transformation. Python
  mutates the dictionary while iterating over it. Depending on the Python
  version, that loop raises a `RuntimeError`. It always does when `time` is
  already present.
- `Normalize.Render`: a list or mapping passed as `collection` is rendered as
  a placeholder, not with Python's `repr`. Strings, integers and `None` are
  rendered as Python does.
- `Session.Items`: the paged path requires `PagingStops`: some page stops
  the loop, because the items before it reach `min(found, limit)` or it is
  not answered with a `features` list. Otherwise every page is answered
  and the items never reach the count, and the source loops forever. Empty
  pages are allowed as long as a later page stops the loop.
- `Session.Features`: a `features` value that is a string or a mapping
  fails in the model. Python iterates it instead. An empty one yields no
  items, so the loop asks for the next page. A non-empty one hands
  characters or keys to the satstac `Item` class, which is not part of this
  model.
- `Session.IdValues`: `ids` given as a mapping fails in the model. Python
  would iterate its keys in insertion order, which a Dafny map does not keep.
- `Session.Referenced`: every non-string collection id fails before any
  collection fetch. In Python, unhashable ids fail while the set is built.
  Numeric or null ids fail at the fetch, after any fetches that come earlier
  in set order.
- Python booleans and floats are not modelled as JSON values. A boolean
  `page` would advance as an integer in Python.
- The caller's `property` list is mutated in place by `append`. The model
  builds a new list instead.
- The commented-out merge of collections into items is not modelled.

=== FILE: json.dfy ===
/** The loosely typed values that flow through a search: keyword
    parameters, request bodies and decoded API responses. */
module Json {
  import opened Wrappers

  /** A JSON-like value. Booleans and floating-point numbers are not modelled. */
  datatype Value =
    | Null
    | Num(n: int)
    | Str(s: string)
    | Arr(elems: seq<Value>)
    | Obj(fields: map<string, Value>)

  /** Keyword parameters of a search, by name. */
  type Params = map<string, Value>

  /** Ways a call can fail. `SearchError` is the package's own exception,
      carrying a message; the others stand for the Python runtime errors
      that ill-typed parameters or responses raise. */
  datatype Error =
    | SearchError(text: string)
    | TypeMismatch
    | MissingKey
    | IndexOutOfRange
    | MissingAttribute

  function Min(a: int, b: int): int {
    if a <= b then a else b
  }

  /** `v[key]` on a decoded value. */
  function Index(v: Value, key: string): (r: Result<Value, Error>)
    ensures r.Success? <==> v.Obj? && key in v.fields
    ensures r.Success? ==> r.value == v.fields[key]
    ensures v.Obj? && key !in v.fields ==> r == Failure(MissingKey)
    ensures !v.Obj? ==> r == Failure(TypeMismatch)
  {
    match v
    case Obj(m) => if key in m then Success(m[key]) else Failure(MissingKey)
    case _ => Failure(TypeMismatch)
  }

  /** `v.get(key, default)`: only mappings have a `get` method. */
  function Get(v: Value, key: string, default: Value): (r: Result<Value, Error>)
    ensures r.Success? <==> v.Obj?
    ensures v.Obj? && key in v.fields ==> r == Success(v.fields[key])
    ensures v.Obj? && key !in v.fields ==> r == Success(default)
    ensures !v.Obj? ==> r == Failure(MissingAttribute)
  {
    match v
    case Obj(m) => Success(if key in m then m[key] else default)
    case _ => Failure(MissingAttribute)
  }

  /** `len(v)`: defined for lists, strings and mappings. */
  function Length(v: Value): (r: Result<nat, Error>)
    ensures r.Failure? <==> v.Null? || v.Num?
    ensures v.Arr? ==> r == Success(|v.elems|)
    ensures v.Str? ==> r == Success(|v.s|)
    ensures v.Obj? ==> r == Success(|v.fields|)
  {
    match v
    case Arr(xs) => Success(|xs|)
    case Str(s) => Success(|s|)
    case Obj(m) => Success(|m|)
    case _ => Failure(TypeMismatch)
  }

  /** The texts of a list whose entries are all strings. */
  function AllText(vs: seq<Value>): (r: Option<seq<string>>)
    ensures r.Some? <==> forall i :: 0 <= i < |vs| ==> vs[i].Str?
    ensures r.Some? ==> |r.value| == |vs| && forall i :: 0 <= i < |vs| ==> vs[i] == Str(r.value[i])
  {
    if |vs| == 0 then Some([])
    else
      match AllText(vs[..|vs| - 1])
      case None => None
      case Some(init) =>
        var last := vs[|vs| - 1];
        if last.Str? then Some(init + [last.s]) else None
  }
}

=== FILE: merge.dfy ===
/** The recursive mapping merge that accumulates query fragments
    (`dict_merge` of the satstac utilities, whose source is not part of this
    model). Its assumed semantics: the result holds the keys of both
    mappings; where both sides hold a mapping under the same key the two are
    merged recursively; otherwise the right-hand value wins. */
module Merge {
  import opened Json

  /** The value kept under a key the right-hand mapping has. */
  function MergeAt(a: map<string, Value>, b: map<string, Value>, k: string): Value
    requires k in b
    decreases Obj(b), 0
  {
    if k in a && a[k].Obj? && b[k].Obj? then Obj(MergeFields(a[k].fields, b[k].fields)) else b[k]
  }

  function MergeFields(a: map<string, Value>, b: map<string, Value>): (r: map<string, Value>)
    ensures r.Keys == a.Keys + b.Keys
    ensures forall k :: k in a && k !in b ==> r[k] == a[k]
    ensures forall k :: k in b && !(k in a && a[k].Obj? && b[k].Obj?) ==> r[k] == b[k]
    ensures forall k :: k in a && k in b && a[k].Obj? && b[k].Obj? ==>
              r[k] == Obj(MergeFields(a[k].fields, b[k].fields))
    decreases Obj(b), 1
  {
    map k | k in a.Keys + b.Keys :: if k in b then MergeAt(a, b, k) else a[k]
  }

  /** Merging a mapping into an empty one copies it. */
  lemma MergeIntoEmpty(b: map<string, Value>)
    ensures MergeFields(map[], b) == b
  {
  }

  /** Entries on keys the two sides do not share all survive untouched. */
  lemma MergeDisjoint(a: map<string, Value>, b: map<string, Value>)
    requires a.Keys !! b.Keys
    ensures MergeFields(a, b) == a + b
  {
  }
}

=== FILE: normalize.dfy ===
/** Normalisation of search keyword parameters into a catalog-search
    request body (`Search.search` followed by `Search.__init__`). */
module Normalize {
  import opened Wrappers
  import opened Json
  import Strings
  import Merge

  // ---------------------------------------------------------------------
  // Comparison expressions
  // ---------------------------------------------------------------------

  datatype Op = Eq | Gt | Lt | Gte | Lte

  /** The order in which the symbols are tried on an expression: the
      insertion order of the symbol table. */
  const SymbolOrder: seq<Op> := [Eq, Gt, Lt, Gte, Lte]

  function Position(op: Op): (k: nat)
    ensures k < |SymbolOrder| && SymbolOrder[k] == op
  {
    match op
    case Eq => 0
    case Gt => 1
    case Lt => 2
    case Gte => 3
    case Lte => 4
  }

  function Symbol(op: Op): (s: string)
    ensures |s| > 0
  {
    match op
    case Eq => "="
    case Gt => ">"
    case Lt => "<"
    case Gte => ">="
    case Lte => "<="
  }

  function OpName(op: Op): string {
    match op
    case Eq => "eq"
    case Gt => "gt"
    case Lt => "lt"
    case Gte => "gte"
    case Lte => "lte"
  }

  /** One parsed comparison `field <op> value`. */
  datatype Clause = Clause(field: string, op: Op, value: string)

  /** Splitting `e` on the symbol of `op` yields exactly two pieces. */
  predicate SplitsOnce(e: string, op: Op) {
    |Strings.Split(e, Symbol(op))| == 2
  }

  function ClauseOf(e: string, op: Op): Clause
    requires SplitsOnce(e, op)
  {
    var parts := Strings.Split(e, Symbol(op));
    Clause(parts[0], op, parts[1])
  }

  /** Tries the symbols from position `k` of `SymbolOrder` onwards. */
  function ParseFrom(e: string, k: nat): (r: Option<Clause>)
    requires k <= |SymbolOrder|
    ensures r.None? <==> forall j :: k <= j < |SymbolOrder| ==> !SplitsOnce(e, SymbolOrder[j])
    ensures r.Some? ==> k <= Position(r.value.op) && SplitsOnce(e, r.value.op) && r.value == ClauseOf(e, r.value.op)
    ensures r.Some? ==> forall j :: k <= j < Position(r.value.op) ==> !SplitsOnce(e, SymbolOrder[j])
    decreases |SymbolOrder| - k
  {
    if k == |SymbolOrder| then None
    else if SplitsOnce(e, SymbolOrder[k]) then Some(ClauseOf(e, SymbolOrder[k]))
    else ParseFrom(e, k + 1)
  }

  /** An expression is attributed to the first symbol, in `SymbolOrder`,
      on which it splits into exactly two pieces: the left piece is the
      field, the right piece the value. Nothing is produced when no symbol
      qualifies. */
  function ParseExpression(e: string): (r: Option<Clause>)
    ensures r.None? <==> forall op: Op :: !SplitsOnce(e, op)
    ensures r.Some? ==> SplitsOnce(e, r.value.op)
    ensures r.Some? ==> r.value.field == Strings.Split(e, Symbol(r.value.op))[0]
    ensures r.Some? ==> r.value.value == Strings.Split(e, Symbol(r.value.op))[1]
    ensures r.Some? ==> forall op: Op :: Position(op) < Position(r.value.op) ==> !SplitsOnce(e, op)
  {
    var r := ParseFrom(e, 0);
    if r.None? then
      assert forall op: Op :: !SplitsOnce(e, op) by {
        forall op: Op ensures !SplitsOnce(e, op) {
          assert SymbolOrder[Position(op)] == op;
        }
      }
      r
    else
      assert forall op: Op :: Position(op) < Position(r.value.op) ==> !SplitsOnce(e, op) by {
        forall op: Op | Position(op) < Position(r.value.op) ensures !SplitsOnce(e, op) {
          assert SymbolOrder[Position(op)] == op;
        }
      }
      r
  }

  /** A parsed expression is its field, its symbol and its value, in order. */
  lemma ParseReconstructs(e: string)
    requires ParseExpression(e).Some?
    ensures var c := ParseExpression(e).value; c.field + Symbol(c.op) + c.value == e
  {
    var c := ParseExpression(e).value;
    var parts := Strings.Split(e, Symbol(c.op));
    Strings.JoinSplit(e, Symbol(c.op));
    assert parts[1..] == [parts[1]];
  }

  /** An expression that splits once on a symbol, and on no symbol tried
      before it, is attributed to that symbol. */
  lemma ParseFirstSymbol(e: string, op: Op)
    requires SplitsOnce(e, op)
    requires forall o: Op :: Position(o) < Position(op) ==> !SplitsOnce(e, o)
    ensures ParseExpression(e) == Some(ClauseOf(e, op))
  {
    var r := ParseExpression(e);
    assert r.Some?;
    assert SplitsOnce(e, r.value.op);
    assert r.value.op == op;
  }

  /** A symbol whose first character does not occur leaves the expression
      whole. */
  lemma NoSplitWithout(e: string, op: Op)
    requires Symbol(op)[0] !in e
    ensures !SplitsOnce(e, op)
  {
    Strings.AbsentFirst(e, Symbol(op));
    Strings.SplitAbsent(e, Symbol(op));
  }

  /** `field=value` parses back into that equality when neither side holds
      an `=`. */
  lemma {:induction false} EqualityRoundTrip(field: string, value: string)
    requires Strings.Absent(field, "=") && Strings.Absent(value, "=")
    ensures ParseExpression(field + "=" + value) == Some(Clause(field, Eq, value))
  {
    var e := field + "=" + value;
    var n := |field|;
    assert e[n..n + 1] == "=";
    forall j | 0 <= j < n
      ensures !Strings.OccursAt(e, "=", j)
    {
      assert e[j] == field[j];
      assert !Strings.OccursAt(field, "=", j);
    }
    assert e[n + 1..] == value && e[..n] == field;
    Strings.SplitOnce(e, "=", n);
    ParseFirstSymbol(e, Eq);
  }

  /** The symbol order as written: `>=` loses to `=`, leaving the `>` in
      the field. */
  lemma ParseGreaterOrEqualAsWritten()
    ensures ParseExpression("a>=5") == Some(Clause("a>", Eq, "5"))
  {
    var e := "a>=5";
    Strings.MismatchAt(e, "=", 0);
    Strings.MismatchAt(e, "=", 1);
    assert e[2..3] == "=";
    assert e[3..] == "5" && e[..2] == "a>";
    Strings.SplitOnce(e, "=", 2);
    ParseFirstSymbol(e, Eq);
  }

  /** Likewise `<=` loses to `=`. */
  lemma ParseLessOrEqualAsWritten()
    ensures ParseExpression("a<=5") == Some(Clause("a<", Eq, "5"))
  {
    var e := "a<=5";
    Strings.MismatchAt(e, "=", 0);
    Strings.MismatchAt(e, "=", 1);
    assert e[2..3] == "=";
    assert e[3..] == "5" && e[..2] == "a<";
    Strings.SplitOnce(e, "=", 2);
    ParseFirstSymbol(e, Eq);
  }

  /** A leading symbol leaves an empty field. */
  lemma ParseEmptyField()
    ensures ParseExpression("=5") == Some(Clause("", Eq, "5"))
  {
    var e := "=5";
    assert e[0..1] == "=";
    assert e[1..] == "5" && e[..0] == "";
    Strings.MismatchAt("5", "=", 0);
    Strings.SplitOnce(e, "=", 0);
    ParseFirstSymbol(e, Eq);
  }

  /** `>=` can win: in `a>=b=c>d` both `=` and `>` occur twice, so neither
      splits it in two, `<` does not occur, and `>=` occurs once. */
  lemma ParseGreaterOrEqualReachable(g: string)
    requires g == "a>=b=c>d"
    ensures ParseExpression(g) == Some(Clause("a", Gte, "b=c>d"))
  {
    ExampleEqualsTwice(g);
    ExampleGreaterTwice(g);
    NoSplitWithout(g, Lt);
    ExampleGreaterOrEqualOnce(g);
    ParseFirstSymbol(g, Gte);
  }

  /** A symbol that occurs in the expression but does not cut it in two
      cuts it into three or more pieces. */
  lemma OccursButNotOnce(e: string, sep: string, i: int)
    requires |sep| > 0 && Strings.OccursAt(e, sep, i) && |Strings.Split(e, sep)| != 2
    ensures |Strings.Split(e, sep)| >= 3
  {
    Strings.OnePiece(e, sep);
  }

  /** The symbol chosen for an expression does not lose to any symbol
      tried before it. */
  lemma ChosenFirst(e: string, o: Op)
    requires ParseExpression(e).Some? && Position(o) < Position(ParseExpression(e).value.op)
    ensures !SplitsOnce(e, o)
  {
  }

  /** Where a two-character symbol occurs, so do its two characters. */
  lemma PairOccurs(e: string, pair: string, i: int)
    requires |pair| == 2 && Strings.OccursAt(e, pair, i)
    ensures Strings.OccursAt(e, pair[..1], i) && Strings.OccursAt(e, pair[1..], i + 1)
  {
    assert e[i..i + 2][0] == e[i] && e[i..i + 2][1] == e[i + 1];
    assert e[i..i + 1] == [e[i]] && e[i + 1..i + 2] == [e[i + 1]];
  }

  /** When a two-character symbol occurs and neither of its characters cuts
      the expression in two, each of them cuts it into three or more. */
  lemma PairRepeats(e: string, pair: string, i: int)
    requires |pair| == 2 && Strings.OccursAt(e, pair, i)
    requires |Strings.Split(e, pair[..1])| != 2 && |Strings.Split(e, pair[1..])| != 2
    ensures |Strings.Split(e, pair[..1])| >= 3 && |Strings.Split(e, pair[1..])| >= 3
  {
    PairOccurs(e, pair, i);
    OccursButNotOnce(e, pair[..1], i);
    OccursButNotOnce(e, pair[1..], i + 1);
  }

  /** A symbol that splits an expression in two occurs in it. */
  lemma SplitterOccurs(e: string, op: Op) returns (i: nat)
    requires SplitsOnce(e, op)
    ensures Strings.OccursAt(e, Symbol(op), i)
  {
    Strings.OnePiece(e, Symbol(op));
    i := Strings.Find(e, Symbol(op)).value;
  }

  /** The two-character symbols are a one-character symbol followed by `=`. */
  lemma SymbolPairs()
    ensures Symbol(Gte)[..1] == Symbol(Gt) && Symbol(Gte)[1..] == Symbol(Eq)
    ensures Symbol(Lte)[..1] == Symbol(Lt) && Symbol(Lte)[1..] == Symbol(Eq)
  {
  }

  /** `>=` is chosen only when `=` and `>` each cut the expression into
      three or more pieces, i.e. each occurs at least twice. */
  lemma GreaterOrEqualNeedsRepeats(e: string)
    requires ParseExpression(e).Some? && ParseExpression(e).value.op == Gte
    ensures |Strings.Split(e, Symbol(Eq))| >= 3 && |Strings.Split(e, Symbol(Gt))| >= 3
  {
    ChosenFirst(e, Eq);
    ChosenFirst(e, Gt);
    var i := SplitterOccurs(e, Gte);
    SymbolPairs();
    PairRepeats(e, Symbol(Gte), i);
  }

  /** Likewise `<=` is chosen only when `=` and `<` each occur at least
      twice. */
  lemma LessOrEqualNeedsRepeats(e: string)
    requires ParseExpression(e).Some? && ParseExpression(e).value.op == Lte
    ensures |Strings.Split(e, Symbol(Eq))| >= 3 && |Strings.Split(e, Symbol(Lt))| >= 3
  {
    ChosenFirst(e, Eq);
    ChosenFirst(e, Lt);
    var i := SplitterOccurs(e, Lte);
    SymbolPairs();
    PairRepeats(e, Symbol(Lte), i);
  }

  /** `a>=b=c>d` holds `=` at positions 2 and 4, so `=` does not split it
      in two. */
  lemma ExampleEqualsTwice(g: string)
    requires g == "a>=b=c>d"
    ensures !SplitsOnce(g, Eq)
  {
    Strings.MismatchAt(g, "=", 0);
    Strings.MismatchAt(g, "=", 1);
    assert g[2..3] == "=";
    Strings.SplitAt(g, "=", 2);
    var t := g[3..];
    assert t == "b=c>d";
    Strings.MismatchAt(t, "=", 0);
    assert t[1..2] == "=";
    Strings.SplitAt(t, "=", 1);
  }

  /** `a>=b=c>d` holds `>` at positions 1 and 6, so `>` does not split it
      in two. */
  lemma ExampleGreaterTwice(g: string)
    requires g == "a>=b=c>d"
    ensures !SplitsOnce(g, Gt)
  {
    Strings.MismatchAt(g, ">", 0);
    assert g[1..2] == ">";
    Strings.SplitAt(g, ">", 1);
    var u := g[2..];
    assert u == "=b=c>d";
    Strings.MismatchAt(u, ">", 0);
    Strings.MismatchAt(u, ">", 1);
    Strings.MismatchAt(u, ">", 2);
    Strings.MismatchAt(u, ">", 3);
    assert u[4..5] == ">";
    Strings.SplitAt(u, ">", 4);
  }

  /** `a>=b=c>d` holds `>=` once, at position 1, which splits it into
      `a` and `b=c>d`. */
  lemma ExampleGreaterOrEqualOnce(g: string)
    requires g == "a>=b=c>d"
    ensures Strings.Split(g, ">=") == ["a", "b=c>d"]
  {
    Strings.MismatchAt(g, ">=", 0);
    assert g[1..3] == ">=";
    var t := g[3..];
    assert t == "b=c>d" && g[..1] == "a";
    Strings.MismatchAt(t, ">=", 0);
    Strings.MismatchAt(t, ">=", 1);
    Strings.MismatchAt(t, ">=", 2);
    assert t[3..5][1] == 'd';
    assert !Strings.OccursAt(t, ">=", 3);
    Strings.SplitOnce(g, ">=", 1);
  }

  /** A doubled `=` splits into three pieces, and no other symbol occurs:
      the expression contributes nothing. */
  lemma ParseDoubledEqualsDropped(h: string)
    requires h == "a==b"
    ensures ParseExpression(h) == None
  {
    DoubledEquals(h);
    NoSplitWithout(h, Gt);
    NoSplitWithout(h, Lt);
    NoSplitWithout(h, Gte);
    NoSplitWithout(h, Lte);
    assert forall op: Op :: !SplitsOnce(h, op) by {
      forall op: Op ensures !SplitsOnce(h, op) {
        match op
        case Eq =>
        case Gt =>
        case Lt =>
        case Gte =>
        case Lte =>
      }
    }
  }

  /** `a==b` holds `=` at positions 1 and 2, so `=` does not split it in
      two. */
  lemma DoubledEquals(h: string)
    requires h == "a==b"
    ensures !SplitsOnce(h, Eq)
  {
    Strings.MismatchAt(h, "=", 0);
    assert h[1..2] == "=";
    Strings.SplitAt(h, "=", 1);
    var t := h[2..];
    assert t == "=b";
    assert t[0..1] == "=";
    Strings.SplitAt(t, "=", 0);
  }

  // ---------------------------------------------------------------------
  // Property expressions into a query
  // ---------------------------------------------------------------------

  /** The query in typed form: field -> operator name -> value. */
  type Query = map<string, map<string, string>>

  function ClauseFields(m: map<string, string>): map<string, Value> {
    map o | o in m :: Str(m[o])
  }

  /** The query as the mapping sent in the request body. */
  function QueryFields(q: Query): map<string, Value> {
    map f | f in q :: Obj(ClauseFields(q[f]))
  }

  /** The one-entry mapping `{field: {opName: value}}` a clause contributes. */
  function Fragment(c: Clause): map<string, Value> {
    map[c.field := Obj(map[OpName(c.op) := Str(c.value)])]
  }

  /** Records a clause: its field gains (or replaces) the clause's operator;
      every other field and operator keeps its value. */
  function AddClause(q: Query, c: Clause): (r: Query)
    ensures r.Keys == q.Keys + {c.field}
    ensures OpName(c.op) in r[c.field] && r[c.field][OpName(c.op)] == c.value
    ensures forall f, o :: f in q && o in q[f] && (f != c.field || o != OpName(c.op)) ==> o in r[f] && r[f][o] == q[f][o]
    ensures forall f, o :: f in r && o in r[f] ==> (f == c.field && o == OpName(c.op)) || (f in q && o in q[f])
  {
    var clauses := if c.field in q then q[c.field] else map[];
    q[c.field := clauses[OpName(c.op) := c.value]]
  }

  /** Merging one operator into a field's clauses overwrites or adds it. */
  lemma MergeClause(m: map<string, string>, o: string, v: string)
    ensures Merge.MergeFields(ClauseFields(m), map[o := Str(v)]) == ClauseFields(m[o := v])
  {
    var left := Merge.MergeFields(ClauseFields(m), map[o := Str(v)]);
    var right := ClauseFields(m[o := v]);
    assert left.Keys == right.Keys;
    forall k | k in left ensures left[k] == right[k] {
      if k == o {
        assert map[o := Str(v)][k] == Str(v);
      }
    }
  }

  /** Merging a clause's fragment into a query with the recursive mapping
      merge is recording the clause. */
  lemma MergeFragment(q: Query, c: Clause)
    ensures Merge.MergeFields(QueryFields(q), Fragment(c)) == QueryFields(AddClause(q, c))
  {
    var left := Merge.MergeFields(QueryFields(q), Fragment(c));
    var right := QueryFields(AddClause(q, c));
    MergeFragmentKeys(q, c);
    forall k | k in left ensures left[k] == right[k] {
      if k == c.field {
        MergeFragmentField(q, c);
      } else {
        MergeFragmentOther(q, c, k);
      }
    }
  }

  /** The merge has the fields of the query plus the clause's. */
  lemma MergeFragmentKeys(q: Query, c: Clause)
    ensures Merge.MergeFields(QueryFields(q), Fragment(c)).Keys == QueryFields(AddClause(q, c)).Keys
  {
    assert Fragment(c).Keys == {c.field};
  }

  /** The clause's own field holds the merged operators. */
  lemma MergeFragmentField(q: Query, c: Clause)
    ensures c.field in Merge.MergeFields(QueryFields(q), Fragment(c))
    ensures Merge.MergeFields(QueryFields(q), Fragment(c))[c.field] == QueryFields(AddClause(q, c))[c.field]
  {
    var f := c.field;
    var o := OpName(c.op);
    var clauses := if f in q then q[f] else map[];
    assert QueryFields(AddClause(q, c))[f] == Obj(ClauseFields(clauses[o := c.value]));
    if f in q {
      assert QueryFields(q)[f] == Obj(ClauseFields(q[f]));
      MergeClause(q[f], o, c.value);
    } else {
      assert ClauseFields(map[o := c.value]) == map[o := Str(c.value)];
    }
  }

  /** Every other field is left as it was. */
  lemma MergeFragmentOther(q: Query, c: Clause, k: string)
    requires k in q && k != c.field
    ensures k in Merge.MergeFields(QueryFields(q), Fragment(c))
    ensures Merge.MergeFields(QueryFields(q), Fragment(c))[k] == QueryFields(AddClause(q, c))[k]
  {
    assert AddClause(q, c)[k] == q[k];
  }

  /** A clause on a field the query does not name yet adds its fragment
      beside the existing fields, which keep their clauses. */
  lemma MergeNewField(q: Query, c: Clause)
    requires c.field !in q
    ensures Merge.MergeFields(QueryFields(q), Fragment(c)) == QueryFields(q) + Fragment(c)
    ensures QueryFields(AddClause(q, c)) == QueryFields(q) + Fragment(c)
  {
    assert QueryFields(q).Keys !! Fragment(c).Keys;
    Merge.MergeDisjoint(QueryFields(q), Fragment(c));
    MergeFragment(q, c);
  }

  /** The first parsed clause, merged into `queries = {}`, is its fragment. */
  lemma MergeFirstClause(c: Clause)
    ensures MergeAll([Some(c)]) == Fragment(c)
  {
    assert [Some(c)][..0] == [];
    Merge.MergeIntoEmpty(Fragment(c));
  }

  /** The parse of each expression, in order. */
  function ParseAll(es: seq<string>): (cs: seq<Option<Clause>>)
    ensures |cs| == |es|
    ensures forall i :: 0 <= i < |es| ==> cs[i] == ParseExpression(es[i])
  {
    seq(|es|, i requires 0 <= i < |es| => ParseExpression(es[i]))
  }

  /** The query as the source accumulates it: the fragment of each parsed
      clause is merged, in order, into the mapping built so far. */
  function MergeAll(cs: seq<Option<Clause>>): (r: map<string, Value>)
    ensures forall i :: 0 <= i < |cs| && cs[i].Some? ==> cs[i].value.field in r
    ensures forall f :: f in r ==> exists i :: 0 <= i < |cs| && cs[i].Some? && cs[i].value.field == f
  {
    if |cs| == 0 then map[]
    else
      var acc := MergeAll(cs[..|cs| - 1]);
      assert forall i :: 0 <= i < |cs| - 1 ==> cs[..|cs| - 1][i] == cs[i];
      match cs[|cs| - 1]
      case None => acc
      case Some(c) => Merge.MergeFields(acc, Fragment(c))
  }

  /** The same accumulation on the typed query. */
  function Accumulate(cs: seq<Option<Clause>>): Query {
    if |cs| == 0 then map[]
    else
      var acc := Accumulate(cs[..|cs| - 1]);
      match cs[|cs| - 1]
      case None => acc
      case Some(c) => AddClause(acc, c)
  }

  lemma {:induction false} MergeAllIsAccumulate(cs: seq<Option<Clause>>)
    ensures MergeAll(cs) == QueryFields(Accumulate(cs))
  {
    if |cs| > 0 {
      MergeAllIsAccumulate(cs[..|cs| - 1]);
      match cs[|cs| - 1]
      case None =>
      case Some(c) => MergeFragment(Accumulate(cs[..|cs| - 1]), c);
    }
  }

  /** A parse result that is a clause on field `f` with operator name `o`. */
  predicate Sets(p: Option<Clause>, f: string, o: string) {
    p.Some? && p.value.field == f && OpName(p.value.op) == o
  }

  /** Position `i` holds the last clause that sets field `f` with operator
      name `o`. */
  predicate LastSets(cs: seq<Option<Clause>>, i: int, f: string, o: string) {
    0 <= i < |cs| && Sets(cs[i], f, o) && forall j :: i < j < |cs| ==> !Sets(cs[j], f, o)
  }

  /** Every entry of the query comes from a clause: the last one that sets
      that field and operator. */
  lemma {:induction false} AccumulateSound(cs: seq<Option<Clause>>, f: string, o: string)
    requires f in Accumulate(cs) && o in Accumulate(cs)[f]
    ensures exists i :: LastSets(cs, i, f, o) && cs[i].value.value == Accumulate(cs)[f][o]
  {
    var n := |cs| - 1;
    if Sets(cs[n], f, o) {
      assert Accumulate(cs) == AddClause(Accumulate(cs[..n]), cs[n].value);
      assert LastSets(cs, n, f, o);
    } else {
      AccumulateKeeps(cs, f, o);
      AccumulateSound(cs[..n], f, o);
      var i :| LastSets(cs[..n], i, f, o) && cs[..n][i].value.value == Accumulate(cs[..n])[f][o];
      LastSetsExtend(cs, i, f, o);
    }
  }

  /** A last parse that does not set `f`/`o` leaves that entry alone. */
  lemma AccumulateKeeps(cs: seq<Option<Clause>>, f: string, o: string)
    requires |cs| > 0 && !Sets(cs[|cs| - 1], f, o)
    requires f in Accumulate(cs) && o in Accumulate(cs)[f]
    ensures f in Accumulate(cs[..|cs| - 1]) && o in Accumulate(cs[..|cs| - 1])[f]
    ensures Accumulate(cs)[f][o] == Accumulate(cs[..|cs| - 1])[f][o]
  {
  }

  lemma LastSetsExtend(cs: seq<Option<Clause>>, i: int, f: string, o: string)
    requires |cs| > 0 && !Sets(cs[|cs| - 1], f, o)
    requires LastSets(cs[..|cs| - 1], i, f, o)
    ensures LastSets(cs, i, f, o) && cs[i] == cs[..|cs| - 1][i]
  {
    var n := |cs| - 1;
    forall j | i < j < |cs| ensures !Sets(cs[j], f, o) {
      if j < n {
        assert cs[j] == cs[..n][j];
      }
    }
  }

  /** The last clause that sets a field and operator decides its value,
      whatever other fields and operators the other clauses set. */
  lemma {:induction false} AccumulateLastWins(cs: seq<Option<Clause>>, i: nat, f: string, o: string)
    requires i < |cs| && Sets(cs[i], f, o)
    requires forall j :: i < j < |cs| ==> !Sets(cs[j], f, o)
    ensures f in Accumulate(cs) && o in Accumulate(cs)[f]
    ensures Accumulate(cs)[f][o] == cs[i].value.value
  {
    var n := |cs| - 1;
    var init := cs[..n];
    if i < n {
      assert init[i] == cs[i];
      forall j | i < j < |init| ensures !Sets(init[j], f, o) {
        assert init[j] == cs[j];
      }
      AccumulateLastWins(init, i, f, o);
      assert !Sets(cs[n], f, o);
    }
  }

  /** The query is empty exactly when no expression parses. */
  lemma {:induction false} AccumulateEmpty(cs: seq<Option<Clause>>)
    ensures Accumulate(cs) == map[] <==> forall i :: 0 <= i < |cs| ==> cs[i].None?
  {
    if |cs| > 0 {
      var n := |cs| - 1;
      var init := cs[..n];
      AccumulateEmpty(init);
      forall i | 0 <= i < n ensures cs[i] == init[i] { }
      if cs[n].Some? {
        assert cs[n].value.field in Accumulate(cs);
      }
    }
  }

  /** `property`, when a list, is replaced by the `query` its expressions
      build; a `query` given by the caller is discarded. */
  function ExpandProperties(kw: Params): (r: Result<Params, Error>)
    ensures !("property" in kw && kw["property"].Arr?) ==> r == Success(kw)
    ensures "property" in kw && kw["property"].Arr? ==>
      (r.Success? <==> forall i :: 0 <= i < |kw["property"].elems| ==> kw["property"].elems[i].Str?)
    ensures "property" in kw && kw["property"].Arr? && r.Failure? ==> r.error == MissingAttribute
    ensures "property" in kw && kw["property"].Arr? && r.Success? ==>
      && "property" !in r.value
      && "query" in r.value
      && r.value["query"] == Obj(QueryFields(Accumulate(ParseAll(AllText(kw["property"].elems).value))))
      && r.value == (kw - {"property"})["query" := r.value["query"]]
  {
    if "property" in kw && kw["property"].Arr? then
      match AllText(kw["property"].elems)
      case None => Failure(MissingAttribute)
      case Some(es) =>
        MergeAllIsAccumulate(ParseAll(es));
        Success((kw - {"property"})["query" := Obj(MergeAll(ParseAll(es)))])
    else
      Success(kw)
  }

  // ---------------------------------------------------------------------
  // The collection shortcut
  // ---------------------------------------------------------------------

  /** `'%s' % v`. Lists and mappings are not rendered as Python would. */
  function Render(v: Value): (r: string)
    ensures v.Str? ==> r == v.s
    ensures v.Null? ==> r == "None"
    ensures v.Num? ==> r == Strings.Decimal(v.n) && Strings.DecimalValue(r) == v.n
    ensures !v.Str? ==> '=' !in r
  {
    match v
    case Str(s) => s
    case Num(n) => Strings.Decimal(n)
    case Null => "None"
    case Arr(_) => "[...]"
    case Obj(_) => "{...}"
  }

  /** The field the collection shortcut compares. */
  const CollectionField := "collection"

  /** The expression the collection shortcut stands for. */
  function CollectionExpression(c: Value): string {
    CollectionField + "=" + Render(c)
  }

  lemma NameWithoutEquals()
    ensures Strings.Absent(CollectionField, "=")
  {
    Strings.AbsentFirst(CollectionField, "=");
  }

  /** The shortcut's expression parses as the equality `collection = c`
      whenever the rendered id holds no `=`; any id that is not a string
      renders without one. */
  lemma CollectionClause(c: Value)
    requires !c.Str? || '=' !in c.s
    ensures ParseExpression(CollectionExpression(c)) == Some(Clause(CollectionField, Eq, Render(c)))
  {
    NameWithoutEquals();
    Strings.AbsentFirst(Render(c), "=");
    EqualityRoundTrip(CollectionField, Render(c));
  }

  /** Appends an expression to the `property` list, creating the list when
      absent. */
  function WithExpression(kw: Params, e: string): Params
    requires "property" !in kw || kw["property"].Arr?
  {
    var props := if "property" in kw then kw["property"].elems else [];
    kw["property" := Arr(props + [Str(e)])]
  }

  /** A `collection` keyword becomes one more property expression. Only a
      list can be appended to. */
  function ApplyCollection(kw: Params): (r: Result<Params, Error>)
    ensures "collection" !in kw ==> r == Success(kw)
    ensures "collection" in kw ==> (r.Success? <==> "property" !in kw || kw["property"].Arr?)
    ensures "collection" in kw && r.Failure? ==> r.error == MissingAttribute
    ensures "collection" in kw && r.Success? ==>
      && "collection" !in r.value
      && "property" in r.value && r.value["property"].Arr?
      && r.value["property"].elems == (if "property" in kw then kw["property"].elems else []) + [Str(CollectionExpression(kw["collection"]))]
      && r.value == (kw - {"collection"})["property" := r.value["property"]]
  {
    if "collection" !in kw then Success(kw)
    else
      var props :- if "property" !in kw then Success([])
                   else if kw["property"].Arr? then Success(kw["property"].elems)
                   else Failure(MissingAttribute);
      Success((kw - {"collection"})["property" := Arr(props + [Str(CollectionExpression(kw["collection"]))])])
  }

  // ---------------------------------------------------------------------
  // Sort directives
  // ---------------------------------------------------------------------

  datatype Direction = Asc | Desc

  function DirectionName(d: Direction): string {
    match d
    case Asc => "asc"
    case Desc => "desc"
  }

  function SortRecord(field: Value, d: Direction): Value {
    Obj(map["field" := field, "direction" := Str(DirectionName(d))])
  }

  /** One sort directive. A string without a `>`/`<` prefix first has `>`
      prepended; the prefix gives the direction and the rest the field. The
      source indexes its first element, so an empty string, a non-string
      scalar or a mapping fails; a list whose first element is `">"` or
      `"<"` is accepted likewise. */
  function ParseSort(a: Value): (r: Result<Value, Error>)
    ensures a.Str? && |a.s| == 0 ==> r == Failure(IndexOutOfRange)
    ensures a.Str? && |a.s| > 0 && a.s[0] == '<' ==> r == Success(SortRecord(Str(a.s[1..]), Asc))
    ensures a.Str? && |a.s| > 0 && a.s[0] == '>' ==> r == Success(SortRecord(Str(a.s[1..]), Desc))
    ensures a.Str? && |a.s| > 0 && a.s[0] != '<' && a.s[0] != '>' ==> r == Success(SortRecord(a, Desc))
    ensures a.Null? || a.Num? || a.Obj? ==> r.Failure?
  {
    match a
    case Str(s) =>
      if |s| == 0 then Failure(IndexOutOfRange)
      else
        var t := if s[0] == '>' || s[0] == '<' then s else ">" + s;
        Success(SortRecord(Str(t[1..]), if t[0] == '<' then Asc else Desc))
    case Arr(xs) =>
      if |xs| == 0 then Failure(IndexOutOfRange)
      else if xs[0] == Str(">") then Success(SortRecord(Arr(xs[1..]), Desc))
      else if xs[0] == Str("<") then Success(SortRecord(Arr(xs[1..]), Asc))
      else Failure(TypeMismatch)
    case Obj(_) => Failure(MissingKey)
    case _ => Failure(TypeMismatch)
  }

  /** A sort key in typed form, and the directive that spells it. */
  datatype SortKey = SortKey(field: string, direction: Direction)

  function FormatSort(k: SortKey): string {
    (if k.direction == Asc then "<" else ">") + k.field
  }

  /** Parsing the directive that spells a sort key recovers the key. */
  lemma SortRoundTrip(k: SortKey)
    ensures ParseSort(Str(FormatSort(k))) == Success(SortRecord(Str(k.field), k.direction))
  {
    assert FormatSort(k)[1..] == k.field;
  }

  /** Without a prefix, a directive sorts descending on its whole text. */
  lemma SortDefaultsDescending(s: string)
    requires |s| > 0 && s[0] != '<' && s[0] != '>'
    ensures ParseSort(Str(s)) == ParseSort(Str(">" + s))
  {
    assert (">" + s)[1..] == s;
  }

  /** Every directive, in order; the first that fails aborts. */
  function ExpandSorts(xs: seq<Value>): (r: Result<seq<Value>, Error>)
    ensures r.Success? <==> forall i :: 0 <= i < |xs| ==> ParseSort(xs[i]).Success?
    ensures r.Success? ==> |r.value| == |xs| && forall i :: 0 <= i < |xs| ==> ParseSort(xs[i]) == Success(r.value[i])
    ensures r.Failure? ==> exists i :: 0 <= i < |xs| && ParseSort(xs[i]) == Failure(r.error)
                              && forall j :: 0 <= j < i ==> ParseSort(xs[j]).Success?
  {
    if |xs| == 0 then Success([])
    else
      var init :- ExpandSorts(xs[..|xs| - 1]);
      var last :- ParseSort(xs[|xs| - 1]);
      Success(init + [last])
  }

  /** `sort`, when a list, is replaced by its parsed records. */
  function ExpandSort(kw: Params): (r: Result<Params, Error>)
    ensures !("sort" in kw && kw["sort"].Arr?) ==> r == Success(kw)
    ensures "sort" in kw && kw["sort"].Arr? ==>
      (r.Success? <==> forall i :: 0 <= i < |kw["sort"].elems| ==> ParseSort(kw["sort"].elems[i]).Success?)
    ensures "sort" in kw && kw["sort"].Arr? && r.Failure? ==>
      exists i :: 0 <= i < |kw["sort"].elems| && ParseSort(kw["sort"].elems[i]) == Failure(r.error)
    ensures "sort" in kw && kw["sort"].Arr? && r.Success? ==>
      && "sort" in r.value && r.value["sort"].Arr?
      && |r.value["sort"].elems| == |kw["sort"].elems|
      && (forall i :: 0 <= i < |kw["sort"].elems| ==> ParseSort(kw["sort"].elems[i]) == Success(r.value["sort"].elems[i]))
      && r.value == kw["sort" := r.value["sort"]]
  {
    if "sort" in kw && kw["sort"].Arr? then
      var sorts :- ExpandSorts(kw["sort"].elems);
      Success(kw["sort" := Arr(sorts)])
    else
      Success(kw)
  }

  // ---------------------------------------------------------------------
  // Construction and the whole normalisation
  // ---------------------------------------------------------------------

  /** `datetime` is renamed `time`; nothing else changes. */
  function RenameDatetime(kw: Params): (r: Params)
    ensures "datetime" !in r
    ensures "datetime" !in kw ==> r == kw
    ensures "datetime" in kw ==> r.Keys == kw.Keys - {"datetime"} + {"time"} && r["time"] == kw["datetime"]
    ensures forall k :: k in kw && k != "datetime" && k != "time" ==> k in r && r[k] == kw[k]
    ensures forall k :: k in r ==> k in kw || k == "time"
  {
    if "datetime" in kw then (kw - {"datetime"})["time" := kw["datetime"]] else kw
  }

  /** Key `k` is present in `r` exactly when it is in `kw`, with the same
      value. */
  ghost predicate Kept(kw: Params, r: Params, k: string) {
    (k in r <==> k in kw) && (k in kw ==> r[k] == kw[k])
  }

  /** The keys normalisation interprets; every other key passes through. */
  const Interpreted: set<string> := {"collection", "property", "query", "sort", "datetime", "time"}

  /** `Search.search(**kw)`: the parameters of the search it constructs. */
  function Search(kw: Params): (r: Result<Params, Error>)
    ensures r.Success? ==> "collection" !in r.value && "datetime" !in r.value
    ensures r.Success? && "datetime" in kw ==> "time" in r.value && r.value["time"] == kw["datetime"]
    ensures "collection" in kw && "property" in kw && !kw["property"].Arr? ==> r == Failure(MissingAttribute)
  {
    var withCollection :- ApplyCollection(kw);
    Normalized(withCollection)
  }

  /** The steps after the collection shortcut: the property list, the sort
      list, then the constructor's rename. */
  function Normalized(kw: Params): (r: Result<Params, Error>)
    ensures r.Success? && "collection" !in kw ==> "collection" !in r.value
    ensures r.Success? ==> "datetime" !in r.value
    ensures r.Success? && "datetime" in kw ==> "time" in r.value && r.value["time"] == kw["datetime"]
  {
    var withQuery :- ExpandProperties(kw);
    var withSort :- ExpandSort(withQuery);
    assert "collection" in kw || ("collection" !in withQuery && "collection" !in withSort);
    Success(RenameDatetime(withSort))
  }

  /** Normalisation succeeds exactly when a collection shortcut has a list
      (or nothing) to append to, every entry of a `property` list is a
      string, and every entry of a `sort` list is a valid directive. */
  lemma SearchSucceeds(kw: Params)
    ensures Search(kw).Success? <==>
      && ("collection" in kw && "property" in kw ==> kw["property"].Arr?)
      && ("property" in kw && kw["property"].Arr? ==> forall i :: 0 <= i < |kw["property"].elems| ==> kw["property"].elems[i].Str?)
      && ("sort" in kw && kw["sort"].Arr? ==> forall i :: 0 <= i < |kw["sort"].elems| ==> ParseSort(kw["sort"].elems[i]).Success?)
  {
    SearchSteps(kw);
    if ApplyCollection(kw).Success? {
      PropertiesSucceed(kw);
      if ExpandProperties(ApplyCollection(kw).value).Success? {
        SortUntouched(kw);
      }
    }
  }

  /** Normalisation succeeds exactly when each of its steps does. */
  lemma SearchSteps(kw: Params)
    ensures Search(kw).Success? <==>
      && ApplyCollection(kw).Success?
      && ExpandProperties(ApplyCollection(kw).value).Success?
      && ExpandSort(ExpandProperties(ApplyCollection(kw).value).value).Success?
  {
  }

  /** After the collection shortcut, the property list expands exactly
      when every entry the caller gave is a string. */
  lemma PropertiesSucceed(kw: Params)
    requires ApplyCollection(kw).Success?
    ensures ExpandProperties(ApplyCollection(kw).value).Success? <==>
      ("property" in kw && kw["property"].Arr? ==> forall i :: 0 <= i < |kw["property"].elems| ==> kw["property"].elems[i].Str?)
  {
    var a := ApplyCollection(kw).value;
    if "collection" in kw {
      var props := if "property" in kw then kw["property"].elems else [];
      assert a["property"].elems == props + [Str(CollectionExpression(kw["collection"]))];
      assert (forall i :: 0 <= i < |a["property"].elems| ==> a["property"].elems[i].Str?)
         <==> (forall i :: 0 <= i < |props| ==> props[i].Str?) by {
        forall i | 0 <= i < |props| ensures a["property"].elems[i] == props[i] { }
      }
    }
  }

  /** The collection and property steps leave `sort` as given. */
  lemma SortUntouched(kw: Params)
    requires ApplyCollection(kw).Success? && ExpandProperties(ApplyCollection(kw).value).Success?
    ensures var b := ExpandProperties(ApplyCollection(kw).value).value;
      ("sort" in b <==> "sort" in kw) && ("sort" in kw ==> b["sort"] == kw["sort"])
  {
  }

  /** The expressions a search filters on: the strings of the `property`
      list, then the collection shortcut's. */
  function Expressions(kw: Params): (es: seq<string>)
    requires "property" in kw && kw["property"].Arr? ==> AllText(kw["property"].elems).Some?
    ensures |es| == (if "property" in kw && kw["property"].Arr? then |kw["property"].elems| else 0) + (if "collection" in kw then 1 else 0)
    ensures "collection" in kw ==> es[|es| - 1] == CollectionExpression(kw["collection"])
    ensures "property" in kw && kw["property"].Arr? ==>
      && |kw["property"].elems| <= |es|
      && forall i :: 0 <= i < |kw["property"].elems| ==> kw["property"].elems[i] == Str(es[i])
  {
    (if "property" in kw && kw["property"].Arr? then AllText(kw["property"].elems).value else [])
    + (if "collection" in kw then [CollectionExpression(kw["collection"])] else [])
  }

  /** With a collection shortcut or a property list, the search's `query`
      is the one the expressions build, each field mapping to the merge of
      its clauses in order. */
  lemma SearchQuery(kw: Params)
    requires Search(kw).Success?
    requires "collection" in kw || ("property" in kw && kw["property"].Arr?)
    ensures "property" in kw && kw["property"].Arr? ==> AllText(kw["property"].elems).Some?
    ensures "query" in Search(kw).value
    ensures Search(kw).value["query"] == Obj(QueryFields(Accumulate(ParseAll(Expressions(kw)))))
  {
    var a := ApplyCollection(kw).value;
    var b := ExpandProperties(a).value;
    assert AllText(a["property"].elems).Some?;
    assert b["query"] == Obj(QueryFields(Accumulate(ParseAll(AllText(a["property"].elems).value))));
    PropertyTexts(kw);
    var c := ExpandSort(b).value;
    assert "query" in c && c["query"] == b["query"];
    assert Search(kw).value == RenameDatetime(c);
  }

  /** The strings of the `property` list after the collection shortcut are
      the search's expressions. */
  lemma PropertyTexts(kw: Params)
    requires ApplyCollection(kw).Success?
    requires "collection" in kw || ("property" in kw && kw["property"].Arr?)
    requires AllText(ApplyCollection(kw).value["property"].elems).Some?
    ensures "property" in kw && kw["property"].Arr? ==> AllText(kw["property"].elems).Some?
    ensures AllText(ApplyCollection(kw).value["property"].elems).value == Expressions(kw)
  {
    var a := ApplyCollection(kw).value;
    var props := if "property" in kw && kw["property"].Arr? then kw["property"].elems else [];
    if "collection" in kw {
      var e := CollectionExpression(kw["collection"]);
      assert a["property"].elems == props + [Str(e)];
      assert AllText(props).Some? by {
        forall i | 0 <= i < |props| ensures props[i].Str? {
          assert a["property"].elems[i] == props[i];
        }
      }
      AllTextAppend(props, e);
    }
  }

  /** One more string extends the texts of a list of strings. */
  lemma AllTextAppend(vs: seq<Value>, e: string)
    requires AllText(vs).Some?
    ensures AllText(vs + [Str(e)]) == Some(AllText(vs).value + [e])
  {
    assert (vs + [Str(e)])[..|vs|] == vs;
  }

  /** A `sort` list is replaced by its parsed directives, in order. */
  lemma SearchSorts(kw: Params)
    requires Search(kw).Success?
    requires "sort" in kw && kw["sort"].Arr?
    ensures "sort" in Search(kw).value && Search(kw).value["sort"].Arr?
    ensures |Search(kw).value["sort"].elems| == |kw["sort"].elems|
    ensures forall i :: 0 <= i < |kw["sort"].elems| ==> ParseSort(kw["sort"].elems[i]) == Success(Search(kw).value["sort"].elems[i])
  {
    var a := ApplyCollection(kw).value;
    var b := ExpandProperties(a).value;
    SortUntouched(kw);
    var c := ExpandSort(b).value;
    assert Search(kw).value == RenameDatetime(c);
  }

  /** Keys normalisation does not interpret pass through unchanged, and no
      key appears that is not either given or interpreted. An interpreted
      key that a run does not act on passes through as well: `time` when
      there is no `datetime`, `query` and `property` when there is neither
      a collection shortcut nor a `property` list, and a `sort` that is not
      a list. */
  lemma SearchPassesThrough(kw: Params)
    requires Search(kw).Success?
    ensures forall k :: k in kw && k !in Interpreted ==> k in Search(kw).value && Search(kw).value[k] == kw[k]
    ensures forall k :: k in Search(kw).value ==> k in kw || k in Interpreted
    ensures "datetime" !in kw ==> Kept(kw, Search(kw).value, "time")
    ensures "collection" !in kw && !("property" in kw && kw["property"].Arr?) ==>
      Kept(kw, Search(kw).value, "query") && Kept(kw, Search(kw).value, "property")
    ensures !("sort" in kw && kw["sort"].Arr?) ==> Kept(kw, Search(kw).value, "sort")
  {
    var a := ApplyCollection(kw).value;
    var b := ExpandProperties(a).value;
    var c := ExpandSort(b).value;
    var r := RenameDatetime(c);
    assert Search(kw).value == r;
    if "collection" !in kw && !("property" in kw && kw["property"].Arr?) {
      assert b == kw;
    }
    if !("sort" in kw && kw["sort"].Arr?) {
      SortUntouched(kw);
      assert c == b;
    }
    forall k | k in kw && k !in Interpreted
      ensures k in r && r[k] == kw[k]
    {
      assert k in a && a[k] == kw[k];
      assert k in b && b[k] == a[k];
      assert k in c && c[k] == b[k];
    }
    forall k | k in r
      ensures k in kw || k in Interpreted
    {
      if k !in Interpreted {
        assert k in c;
        assert k in b;
        assert k in a;
      }
    }
  }

  /** With a collection shortcut or a property list, the result has a
      `query` mapping and no `property` key. */
  lemma SearchBuildsQuery(kw: Params)
    requires Search(kw).Success?
    requires "collection" in kw || ("property" in kw && kw["property"].Arr?)
    ensures "property" !in Search(kw).value
    ensures "query" in Search(kw).value && Search(kw).value["query"].Obj?
  {
    var a := ApplyCollection(kw).value;
    assert "property" in a && a["property"].Arr?;
    var b := ExpandProperties(a).value;
    assert "property" !in b && "query" in b && b["query"].Obj?;
    var c := ExpandSort(b).value;
    assert "property" !in c && "query" in c && c["query"] == b["query"];
    assert Search(kw).value == RenameDatetime(c);
  }

  /** Passing `collection=c` normalises exactly like appending the
      expression `collection=c` to the `property` list. */
  lemma CollectionShortcut(kw: Params)
    requires "collection" in kw
    requires "property" !in kw || kw["property"].Arr?
    ensures Search(kw) == Search(WithExpression(kw - {"collection"}, CollectionExpression(kw["collection"])))
  {
    var plain := WithExpression(kw - {"collection"}, CollectionExpression(kw["collection"]));
    assert ApplyCollection(kw) == Success(plain);
    assert ApplyCollection(plain) == Success(plain);
    assert Search(kw) == Normalized(plain);
  }

  /** When `property` is a list, a `query` given by the caller has no
      effect on the outcome. */
  lemma QueryDiscarded(kw: Params, q: Value)
    requires "property" in kw && kw["property"].Arr?
    ensures Search(kw["query" := q]) == Search(kw - {"query"})
  {
    CollectionIgnoresQuery(kw, q);
    var cb := ApplyCollection(kw - {"query"}).value;
    PropertiesIgnoreQuery(cb, q);
  }

  /** The collection shortcut neither reads nor writes `query`. */
  lemma CollectionIgnoresQuery(kw: Params, q: Value)
    requires "property" in kw && kw["property"].Arr?
    ensures ApplyCollection(kw["query" := q]).Success? && ApplyCollection(kw - {"query"}).Success?
    ensures var cb := ApplyCollection(kw - {"query"}).value;
      && "query" !in cb && "property" in cb && cb["property"].Arr?
      && ApplyCollection(kw["query" := q]).value == cb["query" := q]
  {
    var a := kw["query" := q];
    var b := kw - {"query"};
    if "collection" in kw {
      var ca := ApplyCollection(a).value;
      var cb := ApplyCollection(b).value;
      assert ca["property"] == cb["property"];
      assert ca == cb["query" := q];
    } else {
      assert a == b["query" := q];
    }
  }

  /** Expanding a `property` list replaces whatever `query` was given. */
  lemma PropertiesIgnoreQuery(m: Params, q: Value)
    requires "property" in m && m["property"].Arr? && "query" !in m
    ensures ExpandProperties(m["query" := q]) == ExpandProperties(m)
  {
    var a := m["query" := q];
    assert a["property"] == m["property"];
    var ra := ExpandProperties(a);
    var rb := ExpandProperties(m);
    assert ra.Success? == rb.Success?;
    if rb.Success? {
      var e := rb.value["query"];
      assert ra.value["query"] == e;
      var x := (a - {"property"})["query" := e];
      var y := (m - {"property"})["query" := e];
      assert x.Keys == y.Keys;
      assert forall k :: k in x ==> x[k] == y[k];
      assert x == y;
      assert ra.value == x && rb.value == y;
    } else {
      assert ra.error == MissingAttribute && rb.error == MissingAttribute;
    }
  }

}

=== FILE: session.dfy ===
/** One search session (`Search.found`, `Search.collection`,
    `Search.items_by_id`, `Search.items`) over an abstract HTTP layer. */
module Session {
  import opened Wrappers
  import opened Json
  import Strings

  // ---------------------------------------------------------------------
  // Requests and the executor
  // ---------------------------------------------------------------------

  /** Where a request is posted. The base URL is configuration and is not
      modelled. */
  datatype Target =
    | SearchEndpoint                            // <base>/stac/search
    | CustomUrl(url: Value)                     // a `url` keyword among the parameters
    | CollectionResource(cid: string)           // <base>/collections/<cid>
    | ItemResource(cid: string, iid: string)    // <base>/collections/<cid>/items/<iid>

  /** A POST of a JSON body to a target. */
  datatype Request = Request(target: Target, body: Params)

  /** The HTTP layer: the decoded body of a status-200 response, or the
      text of any other response. */
  type Executor = Request -> Result<Value, string>

  /** `query(**kw)`: a `url` keyword replaces the search endpoint and is
      not part of the body. */
  function SearchRequest(kw: Params): (q: Request)
    ensures q.body == kw - {"url"}
    ensures q.target == (if "url" in kw then CustomUrl(kw["url"]) else SearchEndpoint)
  {
    if "url" in kw then Request(CustomUrl(kw["url"]), kw - {"url"}) else Request(SearchEndpoint, kw)
  }

  function CollectionRequest(cid: string): Request {
    Request(CollectionResource(cid), map[])
  }

  function ItemRequest(cid: string, iid: string): Request {
    Request(ItemResource(cid, iid), map[])
  }

  /** One call; a non-200 response is a search error carrying its text. */
  function Query(exec: Executor, q: Request): (r: Result<Value, Error>)
    ensures exec(q).Success? ==> r == Success(exec(q).value)
    ensures exec(q).Failure? ==> r == Failure(SearchError(exec(q).error))
  {
    match exec(q)
    case Success(v) => Success(v)
    case Failure(t) => Failure(SearchError(t))
  }

  /** An outcome together with the requests issued to reach it. */
  datatype Run<T> = Run(result: Result<T, Error>, log: seq<Request>)

  /** What a search returns: items in order, the collections they
      reference, and the parameters searched with (absent for a search by
      id). */
  datatype ResultSet = ResultSet(items: seq<Value>, collections: seq<Value>, search: Option<Params>)

  // ---------------------------------------------------------------------
  // found()
  // ---------------------------------------------------------------------

  /** The body of the counting query: page 1 and no items, unless the
      session's own parameters say otherwise. */
  function FoundBody(kw: Params): (body: Params)
    ensures body.Keys == kw.Keys + {"page", "limit"}
    ensures forall k :: k in kw ==> body[k] == kw[k]
    ensures "page" !in kw ==> body["page"] == Num(1)
    ensures "limit" !in kw ==> body["limit"] == Num(0)
  {
    map["page" := Num(1), "limit" := Num(0)] + kw
  }

  /** `response['meta']['found']`: present only when the response is a
      mapping whose `meta` is a mapping holding `found`. */
  function MetaFound(resp: Value): (r: Result<Value, Error>)
    ensures r.Success? <==> resp.Obj? && "meta" in resp.fields && resp.fields["meta"].Obj? && "found" in resp.fields["meta"].fields
    ensures r.Success? ==> r.value == resp.fields["meta"].fields["found"]
    ensures !resp.Obj? ==> r == Failure(TypeMismatch)
    ensures resp.Obj? && "meta" !in resp.fields ==> r == Failure(MissingKey)
  {
    var meta :- Index(resp, "meta");
    Index(meta, "found")
  }

  /** The total number of hits: the number of ids when searching by id
      (no request), otherwise `meta.found` of one counting query. */
  function Found(exec: Executor, kw: Params): (run: Run<Value>)
    ensures "ids" in kw ==> run.log == []
    ensures "ids" in kw ==> (run.result.Success? <==> !kw["ids"].Null? && !kw["ids"].Num?)
    ensures "ids" in kw && kw["ids"].Arr? ==> run.result == Success(Num(|kw["ids"].elems|))
    ensures "ids" in kw && kw["ids"].Str? ==> run.result == Success(Num(|kw["ids"].s|))
    ensures "ids" !in kw ==> run.log == [SearchRequest(FoundBody(kw))]
    ensures "ids" !in kw && exec(run.log[0]).Failure? ==> run.result == Failure(SearchError(exec(run.log[0]).error))
    ensures "ids" !in kw && exec(run.log[0]).Success? ==> run.result == MetaFound(exec(run.log[0]).value)
  {
    if "ids" in kw then
      Run(match Length(kw["ids"]) case Success(n) => Success(Num(n)) case Failure(e) => Failure(e), [])
    else
      var q := SearchRequest(FoundBody(kw));
      Run(match Query(exec, q) case Success(resp) => MetaFound(resp) case Failure(e) => Failure(e), [q])
  }

  // ---------------------------------------------------------------------
  // collection() and items_by_id()
  // ---------------------------------------------------------------------

  /** The ids a search by id iterates over: a list's entries, or a
      string's characters. */
  function IdValues(ids: Value): (r: Result<seq<Value>, Error>)
    ensures ids.Arr? ==> r == Success(ids.elems)
    ensures ids.Str? ==> r.Success? && |r.value| == |ids.s| && forall i :: 0 <= i < |ids.s| ==> r.value[i] == Str([ids.s[i]])
    ensures !ids.Arr? && !ids.Str? ==> r == Failure(TypeMismatch)
  {
    match ids
    case Arr(xs) => Success(xs)
    case Str(s) => Success(seq(|s|, i requires 0 <= i < |s| => Str([s[i]])))
    case _ => Failure(TypeMismatch)
  }

  /** The item requests of `log`, after the collection fetch, go to the
      leading ids of `xs` in order, each a string, and all but the last
      were answered. */
  ghost predicate IdsFetchedInOrder(exec: Executor, xs: seq<Value>, cid: string, log: seq<Request>) {
    && 1 <= |log| <= 1 + |xs|
    && (forall i :: 1 <= i < |log| ==> xs[i - 1].Str? && log[i] == ItemRequest(cid, xs[i - 1].s))
    && (forall i :: 1 <= i < |log| - 1 ==> exec(log[i]).Success?)
  }

  /** The outcome of a search by id: the collection is fetched first,
      then the items of the ids in input order. A failed fetch, an `ids`
      that cannot be iterated, or an id that is not a string (which is not
      fetched) stops the run with that failure. On success every id was
      fetched, the items are the responses in order and the only
      collection is the fetched one. */
  ghost predicate ByIdOutcome(exec: Executor, ids: Value, cid: string, r: Result<ResultSet, Error>, log: seq<Request>) {
    && |log| >= 1 && log[0] == CollectionRequest(cid)
    && (exec(log[0]).Failure? ==> log == [log[0]] && r == Failure(SearchError(exec(log[0]).error)))
    && (forall i :: 1 <= i < |log| ==> log[i].target.ItemResource? && log[i].target.cid == cid)
    && (exec(log[0]).Success? && IdValues(ids).Failure? ==> log == [log[0]] && r == Failure(IdValues(ids).error))
    && (exec(log[0]).Success? && IdValues(ids).Success? ==> IdsFetchedInOrder(exec, IdValues(ids).value, cid, log))
    && (r.Failure? && exec(log[0]).Success? && IdValues(ids).Success? ==>
        || (&& |log| - 1 < |IdValues(ids).value| && !IdValues(ids).value[|log| - 1].Str?
            && (|log| >= 2 ==> exec(log[|log| - 1]).Success?)
            && r.error == TypeMismatch)
        || (|log| >= 2 && exec(log[|log| - 1]).Failure? && r.error == SearchError(exec(log[|log| - 1]).error)))
    && (r.Success? ==>
        && IdValues(ids).Success?
        && AllText(IdValues(ids).value).Some?
        && var names := AllText(IdValues(ids).value).value;
        && |log| == 1 + |names|
        && (forall i :: 0 <= i < |names| ==> log[1 + i] == ItemRequest(cid, names[i]))
        && exec(log[0]).Success?
        && r.value.collections == [exec(log[0]).value]
        && r.value.search == None
        && |r.value.items| == |names|
        && (forall i :: 0 <= i < |names| ==> exec(log[1 + i]) == Success(r.value.items[i])))
  }

  /** The state of the search by id after the collection fetch and the
      item fetches of the leading ids of `xs`: each of those ids is a
      string, every fetch was answered, and the items are the responses in
      order. */
  ghost predicate FetchedIds(exec: Executor, xs: seq<Value>, cid: string, items: seq<Value>, log: seq<Request>) {
    && |log| == 1 + |items| && |items| <= |xs|
    && log[0] == CollectionRequest(cid) && exec(log[0]).Success?
    && (forall j :: 0 <= j < |items| ==> xs[j].Str? && log[1 + j] == ItemRequest(cid, xs[j].s))
    && (forall j :: 0 <= j < |items| ==> exec(log[1 + j]) == Success(items[j]))
  }

  /** A failed collection fetch ends the search by id. */
  lemma ByIdCollectionFailed(exec: Executor, ids: Value, cid: string, log: seq<Request>)
    requires log == [CollectionRequest(cid)] && exec(log[0]).Failure?
    ensures ByIdOutcome(exec, ids, cid, Failure(SearchError(exec(log[0]).error)), log)
  {
  }

  /** `ids` that cannot be iterated end the search by id after the
      collection fetch. */
  lemma ByIdNotIterable(exec: Executor, ids: Value, cid: string, log: seq<Request>)
    requires log == [CollectionRequest(cid)] && exec(log[0]).Success? && IdValues(ids).Failure?
    ensures ByIdOutcome(exec, ids, cid, Failure(IdValues(ids).error), log)
  {
  }

  /** Fetching the next id's item keeps the state. */
  lemma ByIdStep(exec: Executor, xs: seq<Value>, cid: string, items: seq<Value>, log: seq<Request>)
    requires FetchedIds(exec, xs, cid, items, log) && |items| < |xs| && xs[|items|].Str?
    requires exec(ItemRequest(cid, xs[|items|].s)).Success?
    ensures FetchedIds(exec, xs, cid, items + [exec(ItemRequest(cid, xs[|items|].s)).value], log + [ItemRequest(cid, xs[|items|].s)])
  {
    var l := log + [ItemRequest(cid, xs[|items|].s)];
    var t := items + [exec(ItemRequest(cid, xs[|items|].s)).value];
    forall j | 0 <= j < |t| ensures xs[j].Str? && l[1 + j] == ItemRequest(cid, xs[j].s) && exec(l[1 + j]) == Success(t[j]) {
      if j < |items| {
        assert l[1 + j] == log[1 + j] && t[j] == items[j];
      }
    }
  }

  /** The fetched prefix is the logged order of the search by id. */
  lemma FetchedInOrder(exec: Executor, ids: Value, cid: string, items: seq<Value>, log: seq<Request>)
    requires IdValues(ids).Success? && FetchedIds(exec, IdValues(ids).value, cid, items, log)
    ensures IdsFetchedInOrder(exec, IdValues(ids).value, cid, log)
    ensures forall i :: 1 <= i < |log| ==> log[i].target.ItemResource? && log[i].target.cid == cid
  {
    var xs := IdValues(ids).value;
    forall i | 1 <= i < |log| ensures xs[i - 1].Str? && log[i] == ItemRequest(cid, xs[i - 1].s) && exec(log[i]).Success? {
      assert exec(log[1 + (i - 1)]) == Success(items[i - 1]);
    }
  }

  /** An id that is not a string ends the search by id; it is not fetched. */
  lemma ByIdNonString(exec: Executor, ids: Value, cid: string, items: seq<Value>, log: seq<Request>)
    requires IdValues(ids).Success? && FetchedIds(exec, IdValues(ids).value, cid, items, log)
    requires |items| < |IdValues(ids).value| && !IdValues(ids).value[|items|].Str?
    ensures ByIdOutcome(exec, ids, cid, Failure(TypeMismatch), log)
  {
    FetchedInOrder(exec, ids, cid, items, log);
    if |items| > 0 {
      assert exec(log[1 + (|items| - 1)]) == Success(items[|items| - 1]);
    }
  }

  /** A failed item fetch ends the search by id with its response text. */
  lemma ByIdItemFailed(exec: Executor, ids: Value, cid: string, items: seq<Value>, log: seq<Request>, q: Request)
    requires IdValues(ids).Success? && FetchedIds(exec, IdValues(ids).value, cid, items, log)
    requires |items| < |IdValues(ids).value| && IdValues(ids).value[|items|].Str?
    requires q == ItemRequest(cid, IdValues(ids).value[|items|].s) && exec(q).Failure?
    ensures ByIdOutcome(exec, ids, cid, Failure(SearchError(exec(q).error)), log + [q])
  {
    var xs := IdValues(ids).value;
    var l := log + [q];
    forall i | 1 <= i < |l| ensures xs[i - 1].Str? && l[i] == ItemRequest(cid, xs[i - 1].s) {
      if i < |log| {
        assert l[i] == log[1 + (i - 1)];
      }
    }
    forall i | 1 <= i < |l| - 1 ensures exec(l[i]).Success? {
      assert l[i] == log[1 + (i - 1)];
      assert exec(log[1 + (i - 1)]) == Success(items[i - 1]);
    }
  }

  /** Every id fetched: the items are the responses in id order. */
  lemma ByIdDone(exec: Executor, ids: Value, cid: string, items: seq<Value>, log: seq<Request>)
    requires IdValues(ids).Success? && FetchedIds(exec, IdValues(ids).value, cid, items, log)
    requires |items| == |IdValues(ids).value|
    ensures ByIdOutcome(exec, ids, cid, Success(ResultSet(items, [exec(log[0]).value], None)), log)
  {
    FetchedInOrder(exec, ids, cid, items, log);
    var xs := IdValues(ids).value;
    var names := AllText(xs).value;
    forall i | 0 <= i < |names| ensures log[1 + i] == ItemRequest(cid, names[i]) && exec(log[1 + i]) == Success(items[i]) {
      assert xs[i] == Str(names[i]);
    }
  }

  /** `items_by_id`: fetches collection `cid`, then each id's item. */
  method ItemsById(exec: Executor, ids: Value, cid: string) returns (r: Result<ResultSet, Error>, log: seq<Request>)
    ensures ByIdOutcome(exec, ids, cid, r, log)
  {
    var cq := CollectionRequest(cid);
    log := [cq];
    var col := Query(exec, cq);
    if col.Failure? {
      ByIdCollectionFailed(exec, ids, cid, log);
      return Failure(col.error), log;
    }
    var vs := IdValues(ids);
    if vs.Failure? {
      ByIdNotIterable(exec, ids, cid, log);
      return Failure(vs.error), log;
    }
    var xs := vs.value;
    var items: seq<Value> := [];
    while |items| < |xs|
      invariant FetchedIds(exec, xs, cid, items, log)
      invariant exec(log[0]) == Success(col.value)
      decreases |xs| - |items|
    {
      if !xs[|items|].Str? {
        ByIdNonString(exec, ids, cid, items, log);
        return Failure(TypeMismatch), log;
      }
      var q := ItemRequest(cid, xs[|items|].s);
      var item := Query(exec, q);
      if item.Failure? {
        ByIdItemFailed(exec, ids, cid, items, log, q);
        return Failure(item.error), log + [q];
      }
      ByIdStep(exec, xs, cid, items, log);
      items, log := items + [item.value], log + [q];
    }
    ByIdDone(exec, ids, cid, items, log);
    r := Success(ResultSet(items, [col.value], None));
  }

  // ---------------------------------------------------------------------
  // items(): pagination
  // ---------------------------------------------------------------------

  /** The page size cap of `items`. */
  const PageSizeCap := 1000

  /** The body of every page query before its page number is set: page 1
      and a page size of `min(1000, maxItems)`, unless the session's own
      parameters say otherwise. */
  function PagedBody(kw: Params, maxItems: int): (body: Params)
    ensures body.Keys == kw.Keys + {"page", "limit"}
    ensures forall k :: k in kw ==> body[k] == kw[k]
    ensures "page" !in kw ==> body["page"] == Num(1)
    ensures "limit" !in kw ==> body["limit"] == Num(Min(PageSizeCap, maxItems))
  {
    map["page" := Num(1), "limit" := Num(Min(PageSizeCap, maxItems))] + kw
  }

  function PageRequest(base: Params, page: int): Request {
    SearchRequest(base["page" := Num(page)])
  }

  /** `response['features']`, which must be a list. */
  function Features(resp: Value): (r: Result<seq<Value>, Error>)
    ensures r.Success? <==> resp.Obj? && "features" in resp.fields && resp.fields["features"].Arr?
    ensures r.Success? ==> r.value == resp.fields["features"].elems
  {
    var f :- Index(resp, "features");
    if f.Arr? then Success(f.elems) else Failure(TypeMismatch)
  }

  /** The items of one page, when its query and its `features` succeed. */
  function PageItems(exec: Executor, base: Params, page: int): seq<Value> {
    match exec(PageRequest(base, page))
    case Success(resp) => (match Features(resp) case Success(xs) => xs case Failure(_) => [])
    case Failure(_) => []
  }

  /** The items of `n` consecutive pages from `start`, in page order. */
  function Collected(exec: Executor, base: Params, start: int, n: nat): seq<Value> {
    if n == 0 then [] else Collected(exec, base, start, n - 1) + PageItems(exec, base, start + n - 1)
  }

  /** One more answered page adds its `features` behind the items so far. */
  lemma CollectedStep(exec: Executor, base: Params, start: int, n: nat)
    requires exec(PageRequest(base, start + n)).Success?
    requires Features(exec(PageRequest(base, start + n)).value).Success?
    ensures Collected(exec, base, start, n + 1)
         == Collected(exec, base, start, n) + Features(exec(PageRequest(base, start + n)).value).value
  {
  }

  /** The items of fewer pages are a prefix of the items of more. */
  lemma {:induction false} CollectedPrefix(exec: Executor, base: Params, start: int, m: nat, n: nat)
    requires m <= n
    ensures |Collected(exec, base, start, m)| <= |Collected(exec, base, start, n)|
    ensures Collected(exec, base, start, n)[..|Collected(exec, base, start, m)|] == Collected(exec, base, start, m)
  {
    if m < n {
      CollectedPrefix(exec, base, start, m, n - 1);
      var shorter := Collected(exec, base, start, n - 1);
      var page := PageItems(exec, base, start + n - 1);
      assert Collected(exec, base, start, n) == shorter + page;
      assert (shorter + page)[..|shorter|] == shorter;
    }
  }

  /** Items stay in page order: page `start + k` contributes the block of
      the collected items that follows those of the earlier pages. */
  lemma CollectedInPageOrder(exec: Executor, base: Params, start: int, n: nat, k: nat)
    requires k < n
    ensures |Collected(exec, base, start, k)| <= |Collected(exec, base, start, k + 1)| <= |Collected(exec, base, start, n)|
    ensures Collected(exec, base, start, n)[|Collected(exec, base, start, k)|..|Collected(exec, base, start, k + 1)|]
            == PageItems(exec, base, start + k)
  {
    CollectedPrefix(exec, base, start, k + 1, n);
    var before := Collected(exec, base, start, k);
    var upTo := Collected(exec, base, start, k + 1);
    assert upTo == before + PageItems(exec, base, start + k);
    var all := Collected(exec, base, start, n);
    assert all[|before|..|upTo|] == upTo[|before|..];
  }

  /** The items of one page query, or why there are none: a response that
      is not a status-200 one, or one without a `features` list. */
  function PageOutcome(exec: Executor, q: Request): (r: Result<seq<Value>, Error>)
    ensures exec(q).Failure? ==> r == Failure(SearchError(exec(q).error))
    ensures exec(q).Success? ==> r == Features(exec(q).value)
  {
    match exec(q)
    case Failure(text) => Failure(SearchError(text))
    case Success(resp) => Features(resp)
  }

  /** The paging loop, were it to reach the `n`-th page from `start`, would
      stop there: the earlier pages already hold `count` items, or that
      page is not answered with a `features` list. */
  ghost predicate StopsAt(exec: Executor, base: Params, start: int, count: int, n: nat) {
    |Collected(exec, base, start, n)| >= count || PageOutcome(exec, PageRequest(base, start + n)).Failure?
  }

  /** The paging loop ends: some page stops it. Otherwise every page is
      answered and the items never reach `count`, and the loop runs
      forever. */
  ghost predicate PagingEnds(exec: Executor, base: Params, start: int, count: int) {
    exists n: nat :: StopsAt(exec, base, start, count, n)
  }

  /** The state of the paging loop after `|log|` pages: the queries went
      to consecutive pages from `start`, each was answered with a
      `features` list, the items are theirs in page order, and every page
      was needed. */
  ghost predicate Progress(exec: Executor, base: Params, start: int, maxItems: int, items: seq<Value>, log: seq<Request>) {
    && (maxItems <= 0 ==> log == [])
    && (forall i :: 0 <= i < |log| ==> log[i] == PageRequest(base, start + i))
    && (forall i :: 0 <= i < |log| ==> PageOutcome(exec, log[i]).Success?)
    && items == Collected(exec, base, start, |log|)
    && (|log| > 0 ==> |Collected(exec, base, start, |log| - 1)| < maxItems)
  }

  /** One more page answered with a `features` list, asked for while items
      were still missing, keeps the loop state. */
  lemma ProgressStep(exec: Executor, base: Params, start: int, maxItems: int, items: seq<Value>, log: seq<Request>)
    requires Progress(exec, base, start, maxItems, items, log) && |items| < maxItems
    requires PageOutcome(exec, PageRequest(base, start + |log|)).Success?
    ensures var q := PageRequest(base, start + |log|);
      Progress(exec, base, start, maxItems, items + PageOutcome(exec, q).value, log + [q])
  {
    var q := PageRequest(base, start + |log|);
    var l := log + [q];
    forall i | 0 <= i < |l| ensures l[i] == PageRequest(base, start + i) && PageOutcome(exec, l[i]).Success? {
      if i < |log| {
        assert l[i] == log[i];
      }
    }
    CollectedStep(exec, base, start, |log|);
  }

  /** Every query of `log` was answered with a `features` list except the
      last, whose outcome is the failure `e`. */
  ghost predicate AbortedAtLast(exec: Executor, log: seq<Request>, e: Error) {
    && |log| > 0
    && (forall i :: 0 <= i < |log| - 1 ==> PageOutcome(exec, log[i]).Success?)
    && PageOutcome(exec, log[|log| - 1]) == Failure(e)
  }

  /** A successful paging run from `start`: the queries of `log` went to
      consecutive pages from `start`, each was answered with a `features`
      list, the items are theirs in page order and reach `count`, and
      every page was needed. */
  ghost predicate PagedFrom(exec: Executor, base: Params, start: int, count: int, items: seq<Value>, log: seq<Request>) {
    && (forall i :: 0 <= i < |log| ==> log[i] == PageRequest(base, start + i))
    && (forall i :: 0 <= i < |log| ==> PageOutcome(exec, log[i]).Success?)
    && items == Collected(exec, base, start, |log|)
    && |items| >= count
    && (|log| > 0 ==> |Collected(exec, base, start, |log| - 1)| < count)
  }

  /** A failed paging run from `start`: the queries of `log` went to
      consecutive pages from `start`, all were answered with a `features`
      list but the last, which failed with `e` and was asked for while
      fewer than `count` items had arrived. */
  ghost predicate AbortedFrom(exec: Executor, base: Params, start: int, count: int, log: seq<Request>, e: Error) {
    && (forall i :: 0 <= i < |log| ==> log[i] == PageRequest(base, start + i))
    && AbortedAtLast(exec, log, e)
    && |Collected(exec, base, start, |log| - 1)| < count
  }

  /** A failing page query, asked for while items were still missing,
      ends the log. */
  lemma ProgressAbort(exec: Executor, base: Params, start: int, maxItems: int, items: seq<Value>, log: seq<Request>, e: Error)
    requires Progress(exec, base, start, maxItems, items, log) && |items| < maxItems
    requires PageOutcome(exec, PageRequest(base, start + |log|)) == Failure(e)
    ensures AbortedFrom(exec, base, start, maxItems, log + [PageRequest(base, start + |log|)], e)
  {
  }

  /** A loop state with enough items is the successful end of paging. */
  lemma ProgressDone(exec: Executor, base: Params, start: int, maxItems: int, items: seq<Value>, log: seq<Request>)
    requires Progress(exec, base, start, maxItems, items, log) && |items| >= maxItems
    ensures maxItems <= 0 ==> items == [] && log == []
    ensures PagedFrom(exec, base, start, maxItems, items, log)
  {
  }

  /** A page that stops the loop is not passed while items are missing
      and every page so far was answered. */
  lemma ProgressBounded(exec: Executor, base: Params, start: int, maxItems: int, items: seq<Value>, log: seq<Request>, bound: nat)
    requires Progress(exec, base, start, maxItems, items, log) && |items| < maxItems
    requires StopsAt(exec, base, start, maxItems, bound) && |log| <= bound
    requires PageOutcome(exec, PageRequest(base, start + |log|)).Success?
    ensures |log| < bound
  {
  }

  /** Requests from `start`, one page number at a time until at least
      `maxItems` items have arrived; a page not answered with a `features`
      list aborts. */
  method Paginate(exec: Executor, base: Params, start: int, maxItems: int) returns (r: Result<seq<Value>, Error>, log: seq<Request>)
    requires PagingEnds(exec, base, start, maxItems)
    ensures maxItems <= 0 ==> r == Success([]) && log == []
    ensures r.Success? ==> PagedFrom(exec, base, start, maxItems, r.value, log)
    ensures r.Failure? ==> AbortedFrom(exec, base, start, maxItems, log, r.error)
  {
    ghost var bound: nat :| StopsAt(exec, base, start, maxItems, bound);
    var items: seq<Value> := [];
    log := [];
    while |items| < maxItems
      invariant Progress(exec, base, start, maxItems, items, log)
      invariant |log| <= bound
      decreases bound - |log|
    {
      var q := PageRequest(base, start + |log|);
      var page := PageOutcome(exec, q);
      if page.Failure? {
        ProgressAbort(exec, base, start, maxItems, items, log, page.error);
        return Failure(page.error), log + [q];
      }
      ProgressBounded(exec, base, start, maxItems, items, log, bound);
      ProgressStep(exec, base, start, maxItems, items, log);
      items := items + page.value;
      log := log + [q];
    }
    ProgressDone(exec, base, start, maxItems, items, log);
    r := Success(items);
  }

  // ---------------------------------------------------------------------
  // items(): referenced collections
  // ---------------------------------------------------------------------

  /** The collection an item's properties name, if any. Item properties
      are read as `data.get('properties', {})`; a collection id must be a
      string to be fetched. */
  function CollectionRef(item: Value): (r: Result<Option<string>, Error>)
    ensures item.Obj? && "properties" !in item.fields ==> r == Success(None)
    ensures item.Obj? && "properties" in item.fields && item.fields["properties"].Obj? ==>
      var props := item.fields["properties"].fields;
      r == (if "collection" !in props then Success(None)
            else if props["collection"].Str? then Success(Some(props["collection"].s))
            else Failure(TypeMismatch))
    ensures !item.Obj? ==> r == Failure(MissingAttribute)
  {
    match item
    case Obj(m) =>
      var props := if "properties" in m then m["properties"] else Obj(map[]);
      (match props
       case Obj(p) =>
         if "collection" !in p then Success(None)
         else if p["collection"].Str? then Success(Some(p["collection"].s))
         else Failure(TypeMismatch)
       // `'collection' in props` is a substring or membership test here,
       // and indexing by a string then fails
       case Str(t) => if Strings.Find(t, "collection").Some? then Failure(TypeMismatch) else Success(None)
       case Arr(xs) => if Str("collection") in xs then Failure(TypeMismatch) else Success(None)
       case _ => Failure(TypeMismatch))
    case _ => Failure(MissingAttribute)
  }

  /** The distinct collection ids the items reference; items without one
      are skipped. */
  function Referenced(items: seq<Value>): (r: Result<set<string>, Error>)
    ensures r.Success? <==> forall i :: 0 <= i < |items| ==> CollectionRef(items[i]).Success?
    ensures r.Success? ==> forall c :: c in r.value <==> exists i :: 0 <= i < |items| && CollectionRef(items[i]) == Success(Some(c))
  {
    if |items| == 0 then Success({})
    else
      var init := items[..|items| - 1];
      var rest :- Referenced(init);
      var ref :- CollectionRef(items[|items| - 1]);
      assert forall i :: 0 <= i < |init| ==> init[i] == items[i];
      Success(if ref.Some? then rest + {ref.value} else rest)
  }

  predicate Distinct<T(==)>(s: seq<T>) {
    forall i, j :: 0 <= i < j < |s| ==> s[i] != s[j]
  }

  predicate AllCollectionRequests(log: seq<Request>) {
    forall i :: 0 <= i < |log| ==> log[i].target.CollectionResource? && log[i].body == map[]
  }

  function CollectionIds(log: seq<Request>): (ids: seq<string>)
    requires AllCollectionRequests(log)
    ensures |ids| == |log| && forall i :: 0 <= i < |log| ==> log[i] == CollectionRequest(ids[i])
  {
    seq(|log|, i requires 0 <= i < |log| => log[i].target.cid)
  }

  /** The log fetches every collection of `ids` exactly once, and nothing
      else. */
  ghost predicate FetchedOnce(log: seq<Request>, ids: set<string>) {
    && AllCollectionRequests(log)
    && Distinct(CollectionIds(log))
    && forall c :: c in ids <==> c in CollectionIds(log)
  }

  /** Distinct collections of `ids` were fetched, all answered but the
      last, whose response text is the error `e`. */
  ghost predicate FetchAborted(exec: Executor, log: seq<Request>, ids: set<string>, e: Error) {
    && |log| > 0
    && AllCollectionRequests(log) && Distinct(CollectionIds(log))
    && (forall i :: 0 <= i < |log| ==> log[i].target.cid in ids)
    && (forall i :: 0 <= i < |log| - 1 ==> exec(log[i]).Success?)
    && exec(log[|log| - 1]).Failure? && e == SearchError(exec(log[|log| - 1]).error)
  }

  /** Every collection of `ids` was fetched once, and the collections are
      the responses in fetch order. */
  ghost predicate CollectionsFetched(exec: Executor, log: seq<Request>, ids: set<string>, cols: seq<Value>) {
    && FetchedOnce(log, ids) && |log| == |ids|
    && |cols| == |log|
    && forall i :: 0 <= i < |log| ==> exec(log[i]) == Success(cols[i])
  }

  /** Fetches each collection of `ids` once, in an unspecified order. */
  method FetchCollections(exec: Executor, ids: set<string>) returns (r: Result<seq<Value>, Error>, log: seq<Request>)
    ensures AllCollectionRequests(log) && Distinct(CollectionIds(log))
    ensures forall i :: 0 <= i < |log| ==> log[i].target.cid in ids
    ensures r.Success? ==> CollectionsFetched(exec, log, ids, r.value)
    ensures r.Failure? ==> FetchAborted(exec, log, ids, r.error)
  {
    var remaining := ids;
    var order: seq<string> := [];
    var cols: seq<Value> := [];
    log := [];
    while remaining != {}
      invariant remaining <= ids
      invariant forall c :: c in ids <==> c in remaining || c in order
      invariant forall c :: c in order ==> c !in remaining
      invariant Distinct(order)
      invariant |order| + |remaining| == |ids|
      invariant |log| == |order| == |cols|
      invariant forall i :: 0 <= i < |log| ==> log[i] == CollectionRequest(order[i])
      invariant forall i :: 0 <= i < |log| ==> exec(log[i]) == Success(cols[i])
      decreases remaining
    {
      var c :| c in remaining;
      var q := CollectionRequest(c);
      log := log + [q];
      order := order + [c];
      remaining := remaining - {c};
      var col := exec(q);
      if col.Failure? {
        assert CollectionIds(log) == order;
        return Failure(SearchError(col.error)), log;
      }
      cols := cols + [col.value];
    }
    assert CollectionIds(log) == order;
    r := Success(cols);
  }

  // ---------------------------------------------------------------------
  // items()
  // ---------------------------------------------------------------------

  /** `min(found, limit)`: `found` must be a number to be compared. */
  function MaxItems(exec: Executor, kw: Params, limit: int): (r: Result<int, Error>)
    ensures r.Success? ==> Found(exec, kw).result.Success? && Found(exec, kw).result.value.Num?
    ensures r.Success? ==> r.value == Min(Found(exec, kw).result.value.n, limit)
    ensures r.Success? ==> r.value <= limit
    ensures Found(exec, kw).result.Success? && Found(exec, kw).result.value.Num? ==> r.Success?
    ensures Found(exec, kw).result.Failure? ==> r == Failure(Found(exec, kw).result.error)
    ensures Found(exec, kw).result.Success? && !Found(exec, kw).result.value.Num? ==> r == Failure(TypeMismatch)
  {
    var found :- Found(exec, kw).result;
    if found.Num? then Success(Min(found.n, limit)) else Failure(TypeMismatch)
  }

  /** The paging loop of `items` ends. A non-numeric starting page ends it
      after one page, and a failed count never starts it. */
  ghost predicate PagingStops(exec: Executor, kw: Params, limit: int) {
    match MaxItems(exec, kw, limit)
    case Success(m) =>
      var base := PagedBody(kw, m);
      base["page"].Num? ==> PagingEnds(exec, base, base["page"].n, m)
    case Failure(_) => true
  }

  /** The pages a successful paging run issued and the items it kept:
      no page exactly when `min(found, limit)` is not positive, otherwise
      consecutive page numbers from the starting page, each answered with a
      `features` list, items in page order, and no page after the first
      that reached `min(found, limit)` items. */
  ghost predicate PagedAsSpecified(exec: Executor, kw: Params, limit: int, items: seq<Value>, log: seq<Request>, pages: nat) {
    && MaxItems(exec, kw, limit).Success?
    && var m := MaxItems(exec, kw, limit).value;
    && var base := PagedBody(kw, m);
    && pages == |log|
    && (m <= 0 <==> pages == 0)
    && (pages == 0 ==> items == [])
    && (pages > 0 ==> base["page"].Num? && PagedFrom(exec, base, base["page"].n, m, items, log))
  }

  /** How counting and paging fail, `log` holding the counting request and
      `pages` page requests: the count fails before any page; or, from a
      numeric starting page, a needed page is not answered with a
      `features` list after every earlier one was; or, from a non-numeric
      starting page, that first page fails, or advancing the page number
      does. */
  ghost predicate PagingFailed(exec: Executor, kw: Params, limit: int, log: seq<Request>, pages: nat, e: Error) {
    && |log| == 1 + pages
    && if MaxItems(exec, kw, limit).Failure? then pages == 0 && e == MaxItems(exec, kw, limit).error
       else
         var m := MaxItems(exec, kw, limit).value;
         var base := PagedBody(kw, m);
         && m > 0 && pages >= 1
         && if base["page"].Num? then AbortedFrom(exec, base, base["page"].n, m, log[1..], e)
            else
              && pages == 1 && log[1] == SearchRequest(base)
              && e == (if PageOutcome(exec, log[1]).Failure? then PageOutcome(exec, log[1]).error else TypeMismatch)
  }

  /** The outcome of counting and paging, `log` holding the counting request
      and then `pages` page requests: on success the pages are as specified,
      on failure the search failed as `PagingFailed` describes. */
  ghost predicate PagesFetched(exec: Executor, kw: Params, limit: int, r: Result<seq<Value>, Error>, log: seq<Request>, pages: nat) {
    && |log| >= 1 && log[0] == SearchRequest(FoundBody(kw))
    && (r.Success? ==> |log| == 1 + pages && PagedAsSpecified(exec, kw, limit, r.value, log[1..], pages))
    && (r.Failure? ==> PagingFailed(exec, kw, limit, log, pages, r.error))
  }

  /** The outcome of `Paginate` on the body of `items`, restated in terms of
      the session parameters. */
  lemma PagingSpecified(exec: Executor, kw: Params, limit: int, m: int, base: Params, items: seq<Value>, log: seq<Request>, pageLog: seq<Request>)
    requires MaxItems(exec, kw, limit) == Success(m) && base == PagedBody(kw, m)
    requires m > 0 && base["page"].Num?
    requires log == [SearchRequest(FoundBody(kw))] + pageLog
    requires PagedFrom(exec, base, base["page"].n, m, items, pageLog)
    ensures PagesFetched(exec, kw, limit, Success(items), log, |pageLog|)
  {
    assert log[1..] == pageLog;
  }

  /** A count of at most zero gives no items and asks for no page. */
  lemma NothingToFetch(exec: Executor, kw: Params, limit: int, log: seq<Request>)
    requires MaxItems(exec, kw, limit).Success? && MaxItems(exec, kw, limit).value <= 0
    requires log == [SearchRequest(FoundBody(kw))]
    ensures PagesFetched(exec, kw, limit, Success([]), log, 0)
  {
  }

  /** A failed count ends the paged search before any page. */
  lemma CountFailed(exec: Executor, kw: Params, limit: int, log: seq<Request>)
    requires MaxItems(exec, kw, limit).Failure?
    requires log == [SearchRequest(FoundBody(kw))]
    ensures PagesFetched(exec, kw, limit, Failure(MaxItems(exec, kw, limit).error), log, 0)
  {
  }

  /** From a non-numeric starting page, one page is asked for and then the
      search fails. */
  lemma FirstPageOnly(exec: Executor, kw: Params, limit: int, m: int, log: seq<Request>, e: Error)
    requires MaxItems(exec, kw, limit) == Success(m) && m > 0 && !PagedBody(kw, m)["page"].Num?
    requires log == [SearchRequest(FoundBody(kw)), SearchRequest(PagedBody(kw, m))]
    requires e == (if PageOutcome(exec, log[1]).Failure? then PageOutcome(exec, log[1]).error else TypeMismatch)
    ensures PagesFetched(exec, kw, limit, Failure(e), log, 1)
  {
  }

  /** From a numeric starting page, the failure `Paginate` reports is the
      failure of the paged search. */
  lemma PagesAborted(exec: Executor, kw: Params, limit: int, m: int, base: Params, log: seq<Request>, pageLog: seq<Request>, e: Error)
    requires MaxItems(exec, kw, limit) == Success(m) && m > 0 && base == PagedBody(kw, m) && base["page"].Num?
    requires log == [SearchRequest(FoundBody(kw))] + pageLog
    requires AbortedFrom(exec, base, base["page"].n, m, pageLog, e)
    ensures PagesFetched(exec, kw, limit, Failure(e), log, |pageLog|)
  {
    assert log[1..] == pageLog;
  }

  /** Counting, then paging until at least `min(found, limit)` items have
      arrived. `pages` is the number of page queries issued; the counting
      query comes first in the log. */
  method FetchPages(exec: Executor, kw: Params, limit: int) returns (r: Result<seq<Value>, Error>, log: seq<Request>, pages: nat)
    requires "ids" !in kw
    requires PagingStops(exec, kw, limit)
    ensures PagesFetched(exec, kw, limit, r, log, pages)
  {
    var found := Found(exec, kw);
    var mx := MaxItems(exec, kw, limit);
    if mx.Failure? {
      CountFailed(exec, kw, limit, found.log);
      return Failure(mx.error), found.log, 0;
    }
    if mx.value <= 0 {
      NothingToFetch(exec, kw, limit, found.log);
      return Success([]), found.log, 0;
    }
    r, log, pages := FetchPagesFrom(exec, kw, limit, mx.value, found.log);
  }

  /** The paging loop of `items` once the count `m` is positive; `counted`
      holds the counting request. */
  method FetchPagesFrom(exec: Executor, kw: Params, limit: int, m: int, counted: seq<Request>) returns (r: Result<seq<Value>, Error>, log: seq<Request>, pages: nat)
    requires PagingStops(exec, kw, limit)
    requires MaxItems(exec, kw, limit) == Success(m) && m > 0
    requires counted == [SearchRequest(FoundBody(kw))]
    ensures PagesFetched(exec, kw, limit, r, log, pages)
  {
    var base := PagedBody(kw, m);
    if !base["page"].Num? {
      // The first page is requested; advancing a non-numeric page fails.
      var q := SearchRequest(base);
      log := counted + [q];
      var page := PageOutcome(exec, q);
      var e := if page.Failure? then page.error else TypeMismatch;
      FirstPageOnly(exec, kw, limit, m, log, e);
      return Failure(e), log, 1;
    }
    var paged, pageLog := Paginate(exec, base, base["page"].n, m);
    log := counted + pageLog;
    pages := |pageLog|;
    if paged.Success? {
      PagingSpecified(exec, kw, limit, m, base, paged.value, log, pageLog);
    } else {
      PagesAborted(exec, kw, limit, m, base, log, pageLog, paged.error);
    }
    r := paged;
  }

  /** The items `pages` page queries of the paged search collect. */
  ghost function SearchedItems(exec: Executor, kw: Params, limit: int, pages: nat): (items: seq<Value>)
    ensures forall xs, log :: PagedAsSpecified(exec, kw, limit, xs, log, pages) ==> xs == items
  {
    match MaxItems(exec, kw, limit)
    case Success(m) =>
      var base := PagedBody(kw, m);
      if pages > 0 && base["page"].Num? then Collected(exec, base, base["page"].n, pages) else []
    case Failure(_) => []
  }

  /** A finished paged search: counting and pages as specified, then one
      fetch of each collection the items reference, the collections being
      the responses; the result carries the search parameters. */
  ghost predicate PagedSearchDone(exec: Executor, kw: Params, limit: int, res: ResultSet, log: seq<Request>, pages: nat) {
    && 1 + pages <= |log|
    && PagedAsSpecified(exec, kw, limit, res.items, log[1..1 + pages], pages)
    && Referenced(res.items).Success?
    && CollectionsFetched(exec, log[1 + pages..], Referenced(res.items).value, res.collections)
    && res.search == Some(kw)
  }

  /** A failed paged search: counting or paging failed, or the items are
      found but a referenced collection id is not a string, or a collection
      fetch failed. */
  ghost predicate PagedSearchFailed(exec: Executor, kw: Params, limit: int, log: seq<Request>, pages: nat, e: Error) {
    && 1 + pages <= |log|
    && (|| PagingFailed(exec, kw, limit, log, pages, e)
        || (&& PagedAsSpecified(exec, kw, limit, SearchedItems(exec, kw, limit, pages), log[1..1 + pages], pages)
            && CollectionsFailed(exec, SearchedItems(exec, kw, limit, pages), log[1 + pages..], e)))
  }

  /** Why the collections of `items` could not be gathered. */
  ghost predicate CollectionsFailed(exec: Executor, items: seq<Value>, colLog: seq<Request>, e: Error) {
    match Referenced(items)
    case Failure(err) => colLog == [] && e == err
    case Success(ids) => FetchAborted(exec, colLog, ids, e)
  }

  /** The outcome of the page-by-page path of `items`, `log` starting
      with the counting request and `pages` page requests. */
  ghost predicate PagedSearched(exec: Executor, kw: Params, limit: int, r: Result<ResultSet, Error>, log: seq<Request>, pages: nat) {
    && |log| >= 1 && log[0] == SearchRequest(FoundBody(kw))
    && (r.Success? ==> PagedSearchDone(exec, kw, limit, r.value, log, pages))
    && (r.Failure? ==> PagedSearchFailed(exec, kw, limit, log, pages, r.error))
  }

  /** A failure of counting or paging is the failure of the paged search. */
  lemma PagingFailedSearch(exec: Executor, kw: Params, limit: int, log: seq<Request>, pages: nat, e: Error)
    requires PagesFetched(exec, kw, limit, Failure(e), log, pages)
    ensures PagedSearched(exec, kw, limit, Failure(e), log, pages)
  {
  }

  /** A referenced collection id that is not a string fails the search
      before any collection is fetched. */
  lemma ReferenceFailedSearch(exec: Executor, kw: Params, limit: int, items: seq<Value>, log: seq<Request>, pages: nat)
    requires PagesFetched(exec, kw, limit, Success(items), log, pages) && Referenced(items).Failure?
    ensures PagedSearched(exec, kw, limit, Failure(Referenced(items).error), log, pages)
  {
    assert log[1..1 + pages] == log[1..];
    assert SearchedItems(exec, kw, limit, pages) == items;
    assert log[1 + pages..] == [];
    assert CollectionsFailed(exec, items, log[1 + pages..], Referenced(items).error);
  }

  /** A failed collection fetch fails the search. */
  lemma CollectionFailedSearch(exec: Executor, kw: Params, limit: int, items: seq<Value>, pageLog: seq<Request>, colLog: seq<Request>, pages: nat, e: Error)
    requires PagesFetched(exec, kw, limit, Success(items), pageLog, pages) && Referenced(items).Success?
    requires FetchAborted(exec, colLog, Referenced(items).value, e)
    ensures PagedSearched(exec, kw, limit, Failure(e), pageLog + colLog, pages)
  {
    var log := pageLog + colLog;
    assert log[1..1 + pages] == pageLog[1..];
    assert SearchedItems(exec, kw, limit, pages) == items;
    assert log[1 + pages..] == colLog;
    assert CollectionsFailed(exec, items, log[1 + pages..], e);
  }

  /** Gathered collections complete the search. */
  lemma CollectionsDoneSearch(exec: Executor, kw: Params, limit: int, items: seq<Value>, pageLog: seq<Request>, colLog: seq<Request>, pages: nat, cols: seq<Value>)
    requires PagesFetched(exec, kw, limit, Success(items), pageLog, pages) && Referenced(items).Success?
    requires CollectionsFetched(exec, colLog, Referenced(items).value, cols)
    ensures PagedSearched(exec, kw, limit, Success(ResultSet(items, cols, Some(kw))), pageLog + colLog, pages)
  {
    var log := pageLog + colLog;
    assert log[1..1 + pages] == pageLog[1..];
    assert log[1 + pages..] == colLog;
  }

  /** The page-by-page path of `items`: count, page, then fetch each
      referenced collection once. */
  method PagedItems(exec: Executor, kw: Params, limit: int) returns (r: Result<ResultSet, Error>, log: seq<Request>, pages: nat)
    requires "ids" !in kw
    requires PagingStops(exec, kw, limit)
    ensures PagedSearched(exec, kw, limit, r, log, pages)
  {
    var items;
    items, log, pages := FetchPages(exec, kw, limit);
    if items.Failure? {
      PagingFailedSearch(exec, kw, limit, log, pages, items.error);
      return Failure(items.error), log, pages;
    }
    var refs := Referenced(items.value);
    if refs.Failure? {
      ReferenceFailedSearch(exec, kw, limit, items.value, log, pages);
      return Failure(refs.error), log, pages;
    }
    var cols, colLog := FetchCollections(exec, refs.value);
    if cols.Failure? {
      CollectionFailedSearch(exec, kw, limit, items.value, log, colLog, pages, cols.error);
      return Failure(cols.error), log + colLog, pages;
    }
    CollectionsDoneSearch(exec, kw, limit, items.value, log, colLog, pages, cols.value);
    r, log := Success(ResultSet(items.value, cols.value, Some(kw))), log + colLog;
  }

  const CollectionRequired := "Collection required when searching by id"

  /** `kw.get('query', {}).get('collection', {}).get('eq', None)`: the
      `eq` entry of the `collection` entry of `query`, `None` when either
      level lacks its key, and an error when a level present is not a
      mapping. */
  function CollectionOfQuery(kw: Params): (r: Result<Value, Error>)
    ensures "query" !in kw ==> r == Success(Null)
    ensures "query" in kw && !kw["query"].Obj? ==> r == Failure(MissingAttribute)
    ensures "query" in kw && kw["query"].Obj? ==>
      var q := kw["query"].fields;
      if "collection" !in q then r == Success(Null)
      else if !q["collection"].Obj? then r == Failure(MissingAttribute)
      else if "eq" in q["collection"].fields then r == Success(q["collection"].fields["eq"])
      else r == Success(Null)
  {
    var q := if "query" in kw then kw["query"] else Obj(map[]);
    var c :- Get(q, "collection", Obj(map[]));
    Get(c, "eq", Null)
  }

  /** `items(limit)`: by id when `ids` is given, which needs the collection
      from the `collection` equality of the query; page by page otherwise.
      `pages` is the number of page queries (none by id). */
  method Items(exec: Executor, kw: Params, limit: int) returns (r: Result<ResultSet, Error>, log: seq<Request>, pages: nat)
    requires "ids" !in kw ==> PagingStops(exec, kw, limit)
    ensures "ids" in kw ==> pages == 0
    ensures "ids" in kw && CollectionOfQuery(kw).Failure? ==> r == Failure(CollectionOfQuery(kw).error) && log == []
    ensures "ids" in kw && CollectionOfQuery(kw) == Success(Null) ==>
      r == Failure(SearchError(CollectionRequired)) && log == []
    ensures "ids" in kw && CollectionOfQuery(kw).Success? && !CollectionOfQuery(kw).value.Null? && !CollectionOfQuery(kw).value.Str? ==>
      r == Failure(TypeMismatch) && log == []
    ensures "ids" in kw && CollectionOfQuery(kw).Success? && CollectionOfQuery(kw).value.Str? ==>
      ByIdOutcome(exec, kw["ids"], CollectionOfQuery(kw).value.s, r, log)
    ensures "ids" !in kw ==> PagedSearched(exec, kw, limit, r, log, pages)
  {
    if "ids" in kw {
      log, pages := [], 0;
      var col := CollectionOfQuery(kw);
      if col.Failure? {
        return Failure(col.error), log, pages;
      }
      if col.value.Null? {
        return Failure(SearchError(CollectionRequired)), log, pages;
      }
      if !col.value.Str? {
        return Failure(TypeMismatch), log, pages;
      }
      r, log := ItemsById(exec, kw["ids"], col.value.s);
    } else {
      r, log, pages := PagedItems(exec, kw, limit);
    }
  }
}

=== FILE: strings.dfy ===
/** Python's `str.split(sep)` on a non-empty separator, and the text helpers
    the normaliser needs. */
module Strings {
  import opened Wrappers

  /** `sep` occurs in `s` starting at index `i`. */
  predicate OccursAt(s: string, sep: string, i: int) {
    0 <= i && i + |sep| <= |s| && s[i..i + |sep|] == sep
  }

  /** `sep` occurs nowhere in `s`. */
  predicate Absent(s: string, sep: string) {
    forall i :: 0 <= i <= |s| ==> !OccursAt(s, sep, i)
  }

  /** The first occurrence of `sep` in `s` at or after `from`. */
  function FindFrom(s: string, sep: string, from: nat): (r: Option<nat>)
    requires |sep| > 0
    ensures r.Some? ==> from <= r.value && OccursAt(s, sep, r.value)
    ensures r.Some? ==> forall j :: from <= j < r.value ==> !OccursAt(s, sep, j)
    ensures r.None? ==> forall j :: from <= j ==> !OccursAt(s, sep, j)
    decreases |s| - from
  {
    if from + |sep| > |s| then None
    else if s[from..from + |sep|] == sep then Some(from)
    else FindFrom(s, sep, from + 1)
  }

  /** The first occurrence of `sep` in `s`. */
  function Find(s: string, sep: string): (r: Option<nat>)
    requires |sep| > 0
    ensures r.Some? ==> OccursAt(s, sep, r.value) && forall j :: 0 <= j < r.value ==> !OccursAt(s, sep, j)
    ensures r.None? <==> Absent(s, sep)
  {
    FindFrom(s, sep, 0)
  }

  /** `s.split(sep)`: cut at every occurrence of `sep`, scanning left to
      right and resuming after each occurrence found. */
  function Split(s: string, sep: string): (parts: seq<string>)
    requires |sep| > 0
    ensures |parts| >= 1
    decreases |s|
  {
    match Find(s, sep)
    case None => [s]
    case Some(i) => [s[..i]] + Split(s[i + |sep|..], sep)
  }

  /** `sep.join(parts)`. */
  function Join(parts: seq<string>, sep: string): string {
    if |parts| == 0 then ""
    else if |parts| == 1 then parts[0]
    else parts[0] + sep + Join(parts[1..], sep)
  }

  /** Unfolding `Split` where the separator does not occur. */
  lemma SplitNone(s: string, sep: string)
    requires |sep| > 0 && Find(s, sep).None?
    ensures Split(s, sep) == [s]
  {
  }

  /** Unfolding `Split` at the first occurrence of the separator. */
  lemma SplitSome(s: string, sep: string)
    requires |sep| > 0 && Find(s, sep).Some?
    ensures Find(s, sep).value + |sep| <= |s|
    ensures Split(s, sep) == [s[..Find(s, sep).value]] + Split(s[Find(s, sep).value + |sep|..], sep)
  {
  }

  /** Joining a piece in front of at least one more adds one separator. */
  lemma JoinCons(head: string, tail: seq<string>, sep: string)
    requires |tail| >= 1
    ensures Join([head] + tail, sep) == head + sep + Join(tail, sep)
  {
    assert ([head] + tail)[1..] == tail;
  }

  /** A text is its prefix, an occurrence of the separator, and the rest. */
  lemma CutAt(s: string, sep: string, i: nat)
    requires OccursAt(s, sep, i)
    ensures s == s[..i] + sep + s[i + |sep|..]
  {
    assert s == s[..i] + s[i..i + |sep|] + s[i + |sep|..];
  }

  /** Joining the pieces of a split with the separator gives back the text. */
  lemma {:induction false} JoinSplit(s: string, sep: string)
    requires |sep| > 0
    ensures Join(Split(s, sep), sep) == s
    decreases |s|
  {
    if Find(s, sep).None? {
      SplitNone(s, sep);
    } else {
      var i := Find(s, sep).value;
      SplitSome(s, sep);
      var rest := s[i + |sep|..];
      JoinSplit(rest, sep);
      var tail := Split(rest, sep);
      JoinCons(s[..i], tail, sep);
      CutAt(s, sep, i);
    }
  }

  /** No piece of a split contains the separator. */
  lemma {:induction false} SplitPartsAbsent(s: string, sep: string)
    requires |sep| > 0
    ensures forall k :: 0 <= k < |Split(s, sep)| ==> Absent(Split(s, sep)[k], sep)
    decreases |s|
  {
    if Find(s, sep).None? {
      SplitNone(s, sep);
    } else {
      var i := Find(s, sep).value;
      SplitSome(s, sep);
      var rest := s[i + |sep|..];
      SplitPartsAbsent(rest, sep);
      var head := s[..i];
      forall j | 0 <= j <= |head|
        ensures !OccursAt(head, sep, j)
      {
        if OccursAt(head, sep, j) {
          assert head[j..j + |sep|] == s[j..j + |sep|];
          assert OccursAt(s, sep, j);
        }
      }
    }
  }

  /** A text is a single piece iff the separator does not occur in it. */
  lemma OnePiece(s: string, sep: string)
    requires |sep| > 0
    ensures |Split(s, sep)| == 1 <==> Absent(s, sep)
  {
    if Find(s, sep).None? {
      SplitNone(s, sep);
    } else {
      SplitSome(s, sep);
    }
  }

  /** A text splits into exactly two pieces iff the separator occurs in it
      and not again after its first occurrence. */
  lemma TwoPieces(s: string, sep: string)
    requires |sep| > 0
    ensures |Split(s, sep)| == 2 <==>
      Find(s, sep).Some? && Absent(s[Find(s, sep).value + |sep|..], sep)
  {
    if Find(s, sep).None? {
      SplitNone(s, sep);
    } else {
      SplitSome(s, sep);
      OnePiece(s[Find(s, sep).value + |sep|..], sep);
    }
  }

  /** A text without the separator is its own single piece. */
  lemma SplitAbsent(s: string, sep: string)
    requires |sep| > 0 && Absent(s, sep)
    ensures Split(s, sep) == [s]
  {
    SplitNone(s, sep);
  }

  /** A text whose first separator is at `i`, with none after it, splits
      into the two sides of that occurrence. */
  lemma SplitOnce(s: string, sep: string, i: nat)
    requires |sep| > 0 && OccursAt(s, sep, i)
    requires forall j :: 0 <= j < i ==> !OccursAt(s, sep, j)
    requires Absent(s[i + |sep|..], sep)
    ensures Split(s, sep) == [s[..i], s[i + |sep|..]]
  {
    SplitAt(s, sep, i);
    SplitAbsent(s[i + |sep|..], sep);
  }

  /** An occurrence with none before it is the one `Find` reports. */
  lemma FindFirst(s: string, sep: string, i: nat)
    requires |sep| > 0 && OccursAt(s, sep, i)
    requires forall j :: 0 <= j < i ==> !OccursAt(s, sep, j)
    ensures Find(s, sep) == Some(i)
  {
  }

  /** Cutting at the first occurrence. */
  lemma SplitAt(s: string, sep: string, i: nat)
    requires |sep| > 0 && OccursAt(s, sep, i)
    requires forall j :: 0 <= j < i ==> !OccursAt(s, sep, j)
    ensures Split(s, sep) == [s[..i]] + Split(s[i + |sep|..], sep)
  {
    FindFirst(s, sep, i);
    SplitSome(s, sep);
  }

  /** The separator cannot start where its first character does not. */
  lemma MismatchAt(s: string, sep: string, i: int)
    requires 0 <= i < |s| && |sep| > 0 && s[i] != sep[0]
    ensures !OccursAt(s, sep, i)
  {
    if i + |sep| <= |s| {
      assert s[i..i + |sep|][0] == s[i];
    }
  }

  /** The separator cannot occur where its first character never does. */
  lemma AbsentFirst(s: string, sep: string)
    requires |sep| > 0 && sep[0] !in s
    ensures Absent(s, sep)
  {
    forall i | 0 <= i <= |s|
      ensures !OccursAt(s, sep, i)
    {
      if i < |s| {
        MismatchAt(s, sep, i);
      }
    }
  }

  function DigitChar(d: nat): (c: char)
    requires d < 10
    ensures '0' <= c <= '9' && DigitValue(c) == d
  {
    ('0' as int + d) as char
  }

  function DigitValue(c: char): int {
    c as int - '0' as int
  }

  /** The number a string of decimal digits spells, most significant
      first. */
  function DigitsValue(s: string): int {
    if |s| == 0 then 0 else DigitsValue(s[..|s| - 1]) * 10 + DigitValue(s[|s| - 1])
  }

  /** Decimal digits of a natural number, most significant first, without
      leading zeros. */
  function Digits(n: nat): (r: string)
    ensures |r| >= 1
    ensures forall k :: 0 <= k < |r| ==> '0' <= r[k] <= '9'
    ensures DigitsValue(r) == n
    ensures |r| == 1 || r[0] != '0'
    decreases n
  {
    if n < 10 then
      var r := [DigitChar(n)];
      assert r[..0] == [];
      r
    else
      var init := Digits(n / 10);
      var r := init + [DigitChar(n % 10)];
      assert r[..|r| - 1] == init;
      assert |init| == 1 ==> init[..0] == [];
      r
  }

  /** `str(n)` for an integer: a minus sign exactly for a negative number,
      then decimal digits. */
  function Decimal(n: int): (r: string)
    ensures |r| >= 1 && (r[0] == '-' <==> n < 0)
    ensures forall k :: (if n < 0 then 1 else 0) <= k < |r| ==> '0' <= r[k] <= '9'
    ensures DecimalValue(r) == n
    ensures n < 0 ==> |r| >= 2 && (|r| == 2 || r[1] != '0')
    ensures n >= 0 ==> |r| == 1 || r[0] != '0'
  {
    if n < 0 then "-" + Digits(-n) else Digits(n)
  }

  /** The integer a decimal text spells: a leading minus sign negates the
      digits after it. */
  function DecimalValue(s: string): int {
    if |s| > 0 && s[0] == '-' then -DigitsValue(s[1..]) else DigitsValue(s)
  }
}

=== FILE: wrappers.dfy ===
/** Failure-compatible Option and Result types, usable with `:-`. */
module Wrappers {

  datatype Option<+T> = None | Some(value: T)

  datatype Result<+T, +E> = Success(value: T) | Failure(error: E) {

    predicate IsFailure() {
      Failure?
    }

    function PropagateFailure<U>(): Result<U, E>
      requires Failure?
    {
      Failure(error)
    }

    function Extract(): T
      requires Success?
    {
      value
    }
  }
}
